=== FILE: README.md ===
# Study timetable reminder engine, modelled in Dafny

This project models the reminder engine of the study-timetable web app (`app.js`).
A timetable is a list of weekly entries. Each entry has a day name, a start time and an end time
("HH:MM"). The engine has two halves:

- **Schedule projector** (`timeToMinutes`, `findNextReminderEvent`). It parses times into minutes of the
  day, maps day names to weekdays, projects each start and end onto its next occurrence strictly after
  "now", and picks the soonest one.
- **Firing controller** (`maybeTriggerReminder`, `checkReminders`, `pruneFiredReminderEvents`, the
  reminder loop and the alert). Every tick looks at today's entries. An event fires while "now" is in
  `[minute, minute + 2]`, but at most once per dedup key (date, entry id, start/end, minute). Keys
  older than 14 days are pruned.

The optional credential helpers `normalizeUsername`, `normalizePassword` and `hashCredential` are modelled
too.

Time is an integer count of minutes. Instant `t` lies on day `t / 1440` at minute `t % 1440`, and the
weekday of day `d` is `d % 7`, with day 0 a Sunday. A fired-event key is a tuple whose date is a day
number. Module `DateKeys` shows why that is faithful: the `YYYY-MM-DD` text holds no ':', and for
four-digit years comparing two such texts as strings compares the dates.

Layout, one module per file:

| file | module | what |
|---|---|---|
| `wrappers.dfy` | `Wrappers` | `Option` |
| `text.dfy` | `JsText` | `trim`, decimal digits, `String(n)`, `padStart`, `Number(text)`, string `<=` |
| `time_parse.dfy` | `TimeParse` | `timeToMinutes`, as written and corrected |
| `schedule.dfy` | `Schedule` | entries, events, the minute clock, `DAY_NAMES` / `DAY_NAME_TO_INDEX` |
| `date_key.dfy` | `DateKeys` | `toLocalDateKey` and the order of its texts |
| `projector.dfy` | `Projector` | `findNextReminderEvent`, a loop proved against the candidates of all events |
| `projector_as_written.dfy` | `ProjectorAsWritten` | `findNextReminderEvent` with the day-name lookup and the time parse as written, where they yield an Invalid Date |
| `firing.dfy` | `Firing` | one tick as pure functions: the window, the key, pruning, at-most-once firing |
| `controller.dfy` | `Controller` | the module-level state as class `ReminderEngine`, whose methods are proved against `Firing` |
| `credentials.dfy` | `Credentials` | `normalizeUsername`, `normalizePassword`, `hashCredential` (32-bit FNV-1a on `bv32`) |

## Model

| member | source | states |
|---|---|---|
| JsText.ToNumberReadsNumerals | app.js:170 | `Number` gives a number exactly when the trimmed text is empty or decimal digits after an optional sign, and NaN otherwise |
| JsText.ToNumberOfDigitString | app.js:170 | `Number` reads a text of decimal digits as the number the digits denote |
| TimeParse.AfterColon | app.js:170 | the text splits at its first ':' into the part before it, the ':' and the rest, and there is no rest exactly when the text has no ':' |
| TimeParse.TimeToMinutesAsWritten | app.js:165-183 | as written: a non-string gives null, a number is a minute of the day 0 to 1439, and NaN comes only from a text with no ':' |
| TimeParse.TimeToMinutes | app.js:165-183 | a parsed time is a minute of the day, 0 to 1439 |
| TimeParse.TimeNeedsNumerals | app.js:170-176 | a time is read only when it has a minutes field and both fields, trimmed, are empty or decimal digits after an optional sign; any other text gives null |
| TimeParse.DigitFields | app.js:170-182 | on "hours:minutes" digit texts the result is hours * 60 + minutes exactly when hours are 0-23 and minutes 0-59, and null otherwise |
| TimeParse.TimeRoundTrip | app.js:165-183 | every minute of the day, written as "HH:MM", parses back to itself |
| TimeParse.NoColonNoTime | app.js:170-183 | as corrected, a text without ':' is never a time |
| TimeParse.CorrectionOnlyRemovesNaN | app.js:165-183 | the corrected parse agrees with the parse as written on every null and every number, and differs only where the one as written gives NaN |
| TimeParse.MissingMinutesReadAsNaN | app.js:170-183 | as written, "9" parses to NaN, and as corrected it parses to null |
| TimeParse.EmptyTimeReadsAsNaN | app.js:170-183 | as written, the empty text of a blank time input parses to NaN (its hours read as 0), and as corrected it parses to null |
| Schedule.DayIndex | app.js:35-37 | the lookup restricted to the object's own keys: a found weekday is 0-6, and `DAY_NAMES` at it is the name looked up |
| Schedule.DayIndexInvertsDayNames | app.js:26-37 | restricted to own keys, `DAY_NAME_TO_INDEX` inverts `DAY_NAMES`: each weekday's name maps back to it, and only the seven names map to anything. The lookup as written also finds inherited names; see ProjectorAsWritten.LookupDay and Findings |
| DateKeys.DateKey | app.js:158-163 | a date key holds no ':', so `key.split(":")[0]` of a fired-event key is its whole date |
| DateKeys.DateKeyOrder | app.js:158-163 | for years 1000-9999, string `<=` on date keys is calendar order |
| DateKeys.LexLeDigits | app.js:160-162 | fixed-width digit texts compare as strings the way their numbers compare |
| Projector.NextAt | app.js:215-222 | the projected instant is strictly after now and at most a week after it |
| Projector.DaysUntilLandsOnWeekday | app.js:216 | `daysUntil` is 0-6 and lands on the entry's weekday |
| Projector.SameSlotIsWeeksApart | app.js:215-222 | two instants at the same weekday and minute are at least a week apart |
| Projector.NextAtIsNextSlot | app.js:215-222 | the projected instant falls on the weekday and minute, and no instant after now before it does |
| Projector.Candidate | app.js:201-222 | an event's candidate, when it has one, lies within the week after now |
| Projector.CandidateIsNextOccurrence | app.js:201-222 | the candidate is the next recurrence of the event after now, and an event with an unknown day name or an unparsable time has none and never recurs |
| Projector.CandidatesVisitOrder | app.js:198-211 | the loop visits each entry's start and then its end, so event `kind` of entry `j` is visit `2j + kind` |
| Projector.NoCandidateMeansNone | app.js:192-212 | when no visited event has a candidate, no event of any entry has one |
| Projector.LeaderIsSoonest | app.js:224-230 | the leading candidate belongs to the event it is stored with, lies within a week, and is no later than any recurrence of any event after now |
| Projector.ScanSkip | app.js:209-212 | an event without a candidate leaves the accumulator and what the loop knows unchanged |
| Projector.ScanTake | app.js:224-230 | a candidate replaces the accumulator only when there is none yet or it is strictly earlier, and the accumulator stays the first-visited minimum |
| Projector.CandidateAtStep | app.js:209-222 | at a visit of an entry whose day parses, the candidate is None when the time does not parse and the projected instant when it does |
| Projector.ScanSkipEntry | app.js:203-206 | an entry whose day name is unknown contributes nothing |
| Projector.VisitEvent | app.js:209-230 | one event's callback keeps the loop's knowledge: the accumulator is None exactly when no visited event has a candidate, and otherwise is the first-visited minimum |
| Projector.FindNextReminderEvent | app.js:192-235 | null exactly when no event has a candidate, so an empty timetable gives null. Otherwise it returns the first-visited soonest candidate, with its own entry and kind. That instant is strictly after now, within a week, and no later than any recurrence of any event |
| ProjectorAsWritten.LookupDay | app.js:35-37 | `DAY_NAME_TO_INDEX[name]` finds a weekday exactly for the seven day names, with `DAY_NAMES` at it being the name; it finds an inherited property exactly for the names of `Object.prototype`; and it is undefined for every other text |
| ProjectorAsWritten.CandidateAsWritten | app.js:201-222 | as written, a candidate that is a valid instant lies within the week after now |
| ProjectorAsWritten.CandidateCorrectionOnlyRemovesInvalid | app.js:201-222 | the candidate as written and the corrected one agree on every valid instant and on every event without one; the written one differs only by an Invalid Date, where the corrected one has none |
| ProjectorAsWritten.Offer | app.js:224-230 | the accumulator stays null only when it was null and there is no candidate, and it changes only to the offered event with its candidate. A candidate is taken when nothing is stored yet, and otherwise exactly when it is strictly earlier than the stored `Date`, which never holds when either is an Invalid Date |
| ProjectorAsWritten.FindNextReminderEventAsWritten | app.js:192-235 | the loop as written computes the scan of the entries' callbacks in order from null |
| ProjectorAsWritten.OfferStep | app.js:224-230 | when no event yields an Invalid Date, offering one event as written does what the corrected loop's step does |
| ProjectorAsWritten.EntryStep | app.js:198-230 | when no event yields an Invalid Date, one entry's callback as written does what the corrected loop does for that entry |
| ProjectorAsWritten.ScanPrefix | app.js:192-235 | when no event yields an Invalid Date, after any number of entries the accumulator as written is what the corrected loop knows at that point |
| ProjectorAsWritten.ScannedLeader | app.js:192-235 | an accumulator that meets what the corrected loop knows at its end is null exactly when no event has a candidate, and otherwise is the one leading event with its instant |
| ProjectorAsWritten.ScanAsWrittenAgrees | app.js:192-235 | when no event yields an Invalid Date, the projector as written returns what the corrected `Projector.FindNextReminderEvent` is specified to return: null exactly when no event has a candidate, and otherwise the one leading event, with its entry, its kind and the same instant |
| Projector.LeaderIsUnique | app.js:224-230 | at most one event leads the candidates, so the corrected projector's result is determined by its contract |
| ProjectorAsWritten.InvalidLeaderSticks | app.js:224-230 | once an Invalid Date leads, no later entry replaces it, since every comparison with it is false |
| ProjectorAsWritten.InheritedDayNameLeads | app.js:199-230 | an entry on an inherited day name with a non-null start, followed by any entries, makes the result an Invalid Date for that entry's start; corrected, that entry has no candidate |
| ProjectorAsWritten.HourOnlyTimeLeads | app.js:209-230 | an entry on a weekday whose start reads as NaN, followed by any entries, makes the result an Invalid Date for that start; corrected, that start has no candidate |
| ProjectorAsWritten.InvalidBeforeValid | app.js:198-230 | an entry whose start is an Invalid Date as written and which has no corrected candidates, before an entry whose start is due earlier than its end: as written the Invalid Date is returned, and corrected the second entry's start is the one leading event |
| ProjectorAsWritten.ConstructorBeforeMondaySession | app.js:192-235 | at midnight starting Sunday, an entry on day "constructor" (found by the lookup of app.js:35-37) starting "09:00" before a Monday session from "09:00" to "10:00": as written the result is the first entry's start with an Invalid Date; corrected, the candidates are none, none, 09:00 Monday and 10:00 Monday, and the Monday start is the one leading event |
| ProjectorAsWritten.MondayCandidate | app.js:213-222 | at midnight starting Sunday, an event of a Monday entry at minute `m` is due at minute `m` of Monday |
| Firing.DayNameMatchesDayIndex | app.js:523-527 | the tick's name test `entry.day === DAY_NAMES[getDay()]` agrees with the projector's `DAY_NAME_TO_INDEX` lookup |
| Firing.PruneIsDateKeyTest | app.js:297-305 | pruning by day number keeps a key exactly when the string test `key.split(":")[0] >= cutoffKey` keeps its text, for dates in years 1000-9999 |
| Firing.PruneIdempotent | app.js:297-305 | pruning twice on the same day is pruning once |
| Firing.PruneAbsorbs | app.js:297-305 | pruning, adding keys, and pruning again is adding and pruning once |
| Firing.PruneLaterSubsumes | app.js:297-305 | a later pruning makes an earlier one redundant |
| Firing.TriggerOnlyInWindow | app.js:495-502 | nothing changes unless the minute is non-null and `minute <= now <= minute + 2`; any change means the key was due and new |
| Firing.TriggerFiresFresh | app.js:504-511 | a due key is recorded afterwards, and if it was new the event is raised |
| Firing.TriggerTwiceIsOnce | app.js:504-511 | a second identical call is a no-op |
| Firing.TriggerAppends | app.js:495-514 | what one call records and raises does not depend on what was raised before it in the tick |
| Firing.TriggerKeepsSummary | app.js:495-514 | one call keeps the tick summary: the events raised are exactly the due keys not fired before, once each, and the fired set is the old keys plus the due keys, pruned |
| Firing.VisitKeepsSummary | app.js:526-539 | one entry's callback keeps the summary, with that entry's due keys added |
| Firing.TickOverSummary | app.js:526-539 | visiting the entries in order gives the summary over all due keys |
| Firing.DueKeysAreToday | app.js:504 | every due key is dated today |
| Firing.DueKeysExactly | app.js:526-539 | a key is due exactly when it is due for one of the entries |
| Firing.TickFiresOnlyFresh | app.js:516-540 | at-most-once firing. A tick with reminders off or no entries does nothing. Otherwise it raises exactly the due keys not fired before, no two alike. Its fired set is unchanged when nothing fired, and otherwise is the old and due keys, pruned |
| Firing.TickRecordsDue | app.js:504-510 | after a tick every due key is recorded |
| Firing.SecondTickIsSilent | app.js:516-540 | a second tick at the same minute raises nothing and changes nothing |
| Firing.HourOnlyTimeAlwaysInWindow | app.js:496-500 | as written, an hour-only start time passes the window check at every minute, and as corrected it never does |
| Controller.ReminderEngine.constructor | app.js:39-46 | the state at load: no entries, reminders off, no loop, no alert, no fired keys |
| Controller.ReminderEngine.ReplaceEntries | app.js:285 | the timetable is replaced and nothing else changes |
| Controller.ReminderEngine.PruneFiredReminderEvents | app.js:297-305 | the fired set becomes its pruning, and nothing else changes |
| Controller.ReminderEngine.StopActiveReminderAlert | app.js:433-447 | no alert is left running, and nothing else changes |
| Controller.ReminderEngine.StartActiveReminderAlert | app.js:450-472 | any running alert is replaced by one for this entry and event |
| Controller.ReminderEngine.MaybeTriggerReminder | app.js:495-514 | fires exactly when the event is due and its key is new. The new fired set and the raised event are those of `Firing.Trigger`. An alert starts exactly when it fires |
| Controller.ReminderEngine.CheckEntry | app.js:526-539 | one entry's callback changes the fired set and the raised events as `Firing.VisitEntry` does, and leaves the alert of the last event raised |
| Controller.ReminderEngine.CheckReminders | app.js:516-540 | the new fired set and the events raised, in order, are those of the pure tick `Firing.Tick`. The alert left running is that of the last event raised, and the engine stays valid |
| Controller.ReminderEngine.StartReminderLoop | app.js:542-549 | afterwards the loop runs. When it was not running, exactly one tick ran first |
| Controller.ReminderEngine.StopReminderLoop | app.js:551-558 | afterwards the loop does not run, and nothing else changes |
| Controller.ReminderEngine.SetRemindersEnabled | app.js:560-579 | the loop runs exactly when reminders are on. Turning them off stops any alert and fires nothing. Turning them on runs one tick when the loop was not running. The engine stays valid |
| JsText.TrimStartDropsWhitespace | app.js:51 | the white space dropped at the front is white space only, and the rest is kept as it is |
| JsText.TrimEndDropsWhitespace | app.js:51 | the white space dropped at the back is white space only, and the rest is kept as it is |
| JsText.TrimIsTrimOf | app.js:51 | `trim()` gives a slice of the text, with white space only before and after it and none at its own ends |
| JsText.TrimIsUnique | app.js:51 | there is only one such slice, so `trim()` is the text between the first and the last character that is not white space |
| Credentials.NonWhiteOfTrim | app.js:51 | trimming drops no character that is not white space |
| Credentials.CollapseWhitespace | app.js:51 | the result is empty only for empty input, and keeps white space at its ends exactly where the input has it |
| Credentials.CollapseKeepsNonWhite | app.js:51 | collapsing keeps every character that is not white space, in order |
| Credentials.CollapseRun | app.js:51 | a maximal run of white space becomes exactly one space, and the text on either side collapses on its own |
| Credentials.CollapsedIsSingleSpaced | app.js:51 | after `replace(/\s+/g, " ")` white space is single spaces, never two in a row |
| Credentials.CollapseKeepsSingleSpaced | app.js:51 | single-spaced text is left as it is |
| Credentials.NormalizeUsername | app.js:49-53 | the result is never empty, trimmed and single-spaced. A non-string or a string with nothing but white space gives "guest"; otherwise the name keeps every character that is not white space, in order |
| Credentials.NormalizedNameIsFixed | app.js:49-53 | a normalized name normalizes to itself |
| Credentials.NormalizeUsernameIdempotent | app.js:49-53 | normalizing twice is normalizing once |
| Credentials.BlankNameIsDefault | app.js:49-53 | an empty or all-white name is "guest" |
| Credentials.NormalizeOneWord | app.js:49-53 | a single word, whatever white space surrounds it, normalizes to that word |
| Credentials.NormalizeJoinsNames | app.js:49-53 | two names joined by any run of white space normalize to their normalizations joined by one space |
| Credentials.NormalizePassword | app.js:55-56 | a string gives its `trim()`: the one slice with only white space around it and none at its ends, so a trimmed string is kept. A non-string gives "" |
| Credentials.LowerAscii | app.js:59 | no ASCII capital is left, and each character is the one it replaces up to the case of an ASCII letter |
| Credentials.LowerAsciiIgnoresCase | app.js:59 | two texts lower-case alike exactly when they differ only in the case of ASCII letters, so such names share a credential hash |
| Credentials.MixIsFnvPrime | app.js:64-65 | the five shifts plus the hash are a multiplication by the FNV prime 16777619, modulo 2^32 |
| Credentials.LoopStepIsFnvStep | app.js:63-65 | one turn of the loop is one FNV-1a step |
| Credentials.HashIsFnv1a | app.js:62-66 | the loop computes 32-bit FNV-1a from any start |
| Credentials.ToBase36 | app.js:68 | `toString(36)` gives lower-case base-36 digits with no leading zero |
| Credentials.Base36RoundTrip | app.js:68 | reading the base-36 text back gives the number |
| Credentials.Base36Injective | app.js:68 | different hashes never print alike |
| Credentials.HashCodeUnits | app.js:60-66 | the loop over the text's code units computes their 32-bit FNV-1a hash |
| Credentials.HashCredential | app.js:58-69 | the result is the base-36 text of the 32-bit FNV-1a hash of the lower-cased normalized name, "::" and the password |

## Left out

- Storage: `localStorage`, JSON, `loadUserData`, `switchUser`, `loadReminderState` and the storage keys with `encodeURIComponent`. This is I/O. The fired set and the timetable are fields of the engine.
- The UI: DOM, forms, tabs, rendering, the next-reminder label, the save indicator and status texts. This includes the status message passed to `stopActiveReminderAlert` and `Intl.DateTimeFormat`.
- Web Audio beeps and the Notification API. These are foreign asynchronous calls. A started alert is kept as "which entry and event", and each raised event stands for one notification.
- `setInterval` and `clearInterval`. Only "is the handle set" is kept; the 15 s and 2.4 s periods are not.
- The JavaScript `Date` calendar: `setDate`/`setHours` month rollover, time zones and daylight-saving shifts. Time is a count of whole minutes with a seven-day week.
- The seconds of the clock. Every projected instant falls on a whole minute, so comparing it with "now" gives the same answer as comparing it with the minute "now" lies in.
- Controller.ReminderEngine.MaybeTriggerReminder: pruning uses the day of the tick's `now`. The source reads the clock again inside `pruneFiredReminderEvents`, which differs only when a tick straddles midnight.
- DateKeys.DateKeyOrder: only years 1000-9999. Other years do not print as four digits, and their keys do not compare as dates.
- JsText.ToNumber: handles an optional sign and decimal digits around any white space `Number` skips, and empty text is 0. Fractions, exponents, the `0x`/`0b`/`0o` literals and `Infinity` give NaN here. So "9:30.5" is null in the model but minute 570.5 in the source, and "0x9:00" is null in the model but 540 in the source.
- Credentials.LowerAscii: `toLowerCase` beyond ASCII is not modelled.
- Characters are single UTF-16 code units: `charCodeAt` is the character's code, and surrogate pairs are not modelled.
- `generateId` (random UUIDs) and `DEFAULT_PASSWORD` are not used by the engine.
- Projector.FindNextReminderEvent: models the corrected day-name lookup and `timeToMinutes`. The lookup as written, which also finds inherited names, and a NaN time both give an Invalid Date candidate. Module `ProjectorAsWritten` models that, and Findings lists both.
- Firing.Tick: models the corrected `timeToMinutes`. As written, an hour-only time passes the window check at every minute (Firing.HourOnlyTimeAlwaysInWindow, Findings).
- Controller.ReminderEngine.CheckReminders: runs `Firing.Tick`, so it uses the corrected `timeToMinutes`, and it assumes the corrected projector behind `updateNextReminderLabel` (app.js:513), which never throws. As written, a throw there ends the tick after its first firing (Findings row 2).
- Controller.ReminderEngine.StartReminderLoop: assumes the corrected projector behind `updateNextReminderLabel`, so the first tick never throws and the interval is always set. As written, a throwing first tick at app.js:547 leaves it unset (Findings row 2).
- Controller.ReminderEngine.SetRemindersEnabled: assumes the corrected projector behind `updateNextReminderLabel` (app.js:440, 567), so neither branch throws before it starts or stops the loop and the alert. As written, both branches can stop at app.js:567 (Findings row 2).

## Findings

| source | as written | input that shows it | evidently intended | confidence | as-written member | corrected member |
|---|---|---|---|---|---|---|
| app.js:170-183, app.js:496-500 | A time with no ':' whose hours are a number from 0 to 23 leaves `minutes` undefined; any other text with no ':' gives `null`. `Number.isNaN(undefined)` is false and every comparison with undefined is false, so `timeToMinutes` returns `hours * 60 + undefined`, NaN. NaN is not `null`, and both window comparisons with it are false, so the event passes the check and fires on the first tick of each day it is scheduled (Firing.HourOnlyTimeAlwaysInWindow) | an entry whose start is "9", or "" (a time input left blank: the form handler at app.js:621-639 does not check `start` or `end`) (TimeParse.MissingMinutesReadAsNaN, TimeParse.EmptyTimeReadsAsNaN) | a time without a minutes field is rejected like any malformed time, returning `null` (TimeParse.NoColonNoTime, TimeParse.CorrectionOnlyRemovesNaN) | not executed | TimeParse.TimeToMinutesAsWritten | TimeParse.TimeToMinutes |
| app.js:35-37, app.js:199-230 | `DAY_NAME_TO_INDEX` is a plain object from `Object.fromEntries`, so `DAY_NAME_TO_INDEX[entry.day]` is not `undefined` for a name `Object.prototype` provides. `daysUntil` is then NaN and the candidate an Invalid Date, and `candidate <= now` is false. When no candidate is stored yet it is stored, and no later candidate replaces it, because every `<` with an Invalid Date is false. An hour-only time on a valid day behaves the same. The projector then reports an Invalid Date (ProjectorAsWritten.InheritedDayNameLeads, ProjectorAsWritten.HourOnlyTimeLeads). `updateNextReminderLabel` formats that result with `Intl.DateTimeFormat(...).format` (app.js:246-250), which throws a RangeError for an Invalid Date, so every call of it throws while such an entry, or an hour-only or empty start, is listed first. Read from the source, not run, that cuts the controller short in four places: (1) `setRemindersEnabled(true)` stops at app.js:567 before `startReminderLoop` (app.js:573); (2) `setRemindersEnabled(false)` stops at app.js:567 too, before `stopReminderLoop` and `stopActiveReminderAlert` (app.js:577-578), so the loop and a beeping alert keep running with reminders off; (3) `maybeTriggerReminder` throws at app.js:513 after recording the key and starting the alert, and the throw leaves the `forEach` of app.js:526, so a tick raises only its first fresh due event; (4) when that first `checkReminders()` in `startReminderLoop` (app.js:547) fires something, it throws before the `setInterval` of app.js:548, so no loop is started | at midnight starting Sunday, an entry on day "constructor" starting "09:00", listed before a Monday session from "09:00" to "10:00" (ProjectorAsWritten.ConstructorBeforeMondaySession) | only the seven day names are looked up (an own-key test), and such an entry is skipped like an unknown day, so the Monday session's start, at 09:00 on Monday, leads (ProjectorAsWritten.ConstructorBeforeMondaySession, Projector.FindNextReminderEvent, Projector.LeaderIsUnique); with no Invalid Date among the candidates the two projectors agree (ProjectorAsWritten.ScanAsWrittenAgrees) | not executed | ProjectorAsWritten.FindNextReminderEventAsWritten | Schedule.DayIndex |

=== FILE: controller.dfy ===
/**
 * The firing controller: the module-level state of the reminder engine and the
 * functions that change it in place. `setInterval` handles are kept only as
 * "running or not"; the alert handle also keeps what its beep was started for.
 * Each tick is proved against the pure tick of module Firing. The label update
 * `updateNextReminderLabel` is taken never to throw, as with the corrected
 * projector of module Projector; it is not part of this model.
 */
module Controller {
  import opened Wrappers
  import opened TimeParse
  import opened Schedule
  import opened Firing

  /** What an active alert was started for: its entry, and which event. */
  datatype Alert = Alert(entry: Entry, kind: Kind)

  /** The alert left running after the events `raised` fired, starting from `before`. */
  function LastAlert(raised: seq<Occurrence>, before: Option<Alert>): Option<Alert> {
    if raised == [] then before
    else Some(Alert(raised[|raised| - 1].entry, raised[|raised| - 1].kind))
  }

  /** The alert left after two runs of events is that of the later run, if it raised any. */
  lemma LastAlertAppend(first: seq<Occurrence>, second: seq<Occurrence>, before: Option<Alert>)
    ensures LastAlert(first + second, before) == LastAlert(second, LastAlert(first, before))
  {
    if second == [] {
      assert first + second == first;
    }
  }

  class ReminderEngine {
    /** `entries`: the current user's timetable. */
    var entries: seq<Entry>
    /** `remindersEnabled`. */
    var remindersEnabled: bool
    /** `reminderIntervalId !== null`: the 15-second tick is scheduled. */
    var reminderLoop: bool
    /** `activeAlertIntervalId !== null`: an alert is beeping, for this entry and event. */
    var activeAlert: Option<Alert>
    /** `firedReminderEvents`. */
    var fired: set<FiredKey>

    /**
     * The tick runs exactly while reminders are on, and an alert beeps only
     * while reminders are on.
     */
    ghost predicate Valid()
      reads this
    {
      && reminderLoop == remindersEnabled
      && (activeAlert.Some? ==> remindersEnabled)
    }

    /** The state at page load, before any user's data is read. */
    constructor()
      ensures Valid()
      ensures entries == [] && !remindersEnabled && !reminderLoop && activeAlert == None && fired == {}
    {
      entries := [];
      remindersEnabled := false;
      reminderLoop := false;
      activeAlert := None;
      fired := {};
    }

    /** The timetable is edited, cleared or reloaded. */
    method ReplaceEntries(newEntries: seq<Entry>)
      modifies this
      ensures entries == newEntries
      ensures remindersEnabled == old(remindersEnabled) && reminderLoop == old(reminderLoop)
      ensures activeAlert == old(activeAlert) && fired == old(fired)
      ensures old(Valid()) ==> Valid()
    {
      entries := newEntries;
    }

    /** `pruneFiredReminderEvents`, on the day `today` the clock reads. */
    method PruneFiredReminderEvents(today: int)
      modifies this
      ensures fired == Prune(old(fired), today)
      ensures entries == old(entries) && remindersEnabled == old(remindersEnabled)
      ensures reminderLoop == old(reminderLoop) && activeAlert == old(activeAlert)
      ensures old(Valid()) ==> Valid()
    {
      fired := Prune(fired, today);
    }

    /** `stopActiveReminderAlert`: the beeping stops, whether or not it was running. */
    method StopActiveReminderAlert()
      modifies this
      ensures activeAlert == None
      ensures entries == old(entries) && remindersEnabled == old(remindersEnabled)
      ensures reminderLoop == old(reminderLoop) && fired == old(fired)
      ensures old(Valid()) ==> Valid()
    {
      if activeAlert.Some? {
        activeAlert := None;
      }
    }

    /** `startActiveReminderAlert`: any running alert is replaced by one for this event. */
    method StartActiveReminderAlert(entry: Entry, kind: Kind)
      modifies this
      ensures activeAlert == Some(Alert(entry, kind))
      ensures entries == old(entries) && remindersEnabled == old(remindersEnabled)
      ensures reminderLoop == old(reminderLoop) && fired == old(fired)
    {
      if activeAlert.Some? {
        activeAlert := None;
      }
      activeAlert := Some(Alert(entry, kind));
    }

    /**
     * `maybeTriggerReminder` for event `kind` of `entry` at minute
     * `eventMinutes` (None for `null`), at the instant `now` whose minute of
     * the day and date `checkReminders` passes in. It fires exactly when the event is
     * due and its key is not recorded yet; then the key is recorded, the set
     * pruned as it is persisted, and an alert started for the event.
     */
    method MaybeTriggerReminder(entry: Entry, kind: Kind, eventMinutes: Option<int>, now: int) returns (fires: bool)
      modifies this
      ensures fires <==> DueKey(entry, kind, eventMinutes, now).Some? && DueKey(entry, kind, eventMinutes, now).value !in old(fired)
      ensures Trigger(TickState(old(fired), []), entry, kind, eventMinutes, now) ==
        TickState(fired, if fires then [Occurrence(entry, kind, eventMinutes.value)] else [])
      ensures activeAlert == if fires then Some(Alert(entry, kind)) else old(activeAlert)
      ensures entries == old(entries) && remindersEnabled == old(remindersEnabled) && reminderLoop == old(reminderLoop)
    {
      var nowMinutes := MinuteOfDay(now);
      if eventMinutes.None? || nowMinutes < eventMinutes.value || nowMinutes > eventMinutes.value + GRACE_MINUTES {
        return false;
      }
      var key := FiredKey(DayOf(now), entry.id, kind, eventMinutes.value);
      if key in fired {
        return false;
      }
      fired := fired + {key};
      PruneFiredReminderEvents(DayOf(now));
      StartActiveReminderAlert(entry, kind);
      fires := true;
    }

    /**
     * `checkReminders` at instant `now`. It returns the events it fired, in
     * order: one notification is shown for each. The fired set and the events
     * are those of the pure tick, and the alert left beeping is that of the
     * last event fired.
     */
    method CheckReminders(now: int) returns (raised: seq<Occurrence>)
      modifies this
      ensures var r := Tick(old(fired), old(entries), now, old(remindersEnabled));
        fired == r.fired && raised == r.raised
      ensures activeAlert == LastAlert(raised, old(activeAlert))
      ensures entries == old(entries) && remindersEnabled == old(remindersEnabled) && reminderLoop == old(reminderLoop)
      ensures old(Valid()) ==> Valid()
    {
      raised := [];
      if !remindersEnabled || |entries| == 0 {
        return;
      }
      var dayName := DayName(now);
      var i := 0;
      while i < |entries|
        invariant 0 <= i <= |entries|
        invariant TickState(fired, raised) == TickOver(TickState(old(fired), []), entries[..i], now)
        invariant activeAlert == LastAlert(raised, old(activeAlert))
        invariant entries == old(entries) && remindersEnabled == old(remindersEnabled) && reminderLoop == old(reminderLoop)
      {
        assert entries[..i + 1][..i] == entries[..i];
        var raisedHere := CheckEntry(entries[i], dayName, now, raised);
        LastAlertAppend(raised, raisedHere, old(activeAlert));
        raised := raised + raisedHere;
        i := i + 1;
      }
      assert entries[..i] == entries;
    }

    /**
     * The callback `checkReminders` runs for one entry, `dayName` being today's
     * name: an entry for another day is skipped, otherwise its start and then its
     * end go through `maybeTriggerReminder`. It returns the events it fired;
     * `raisedBefore` are those fired earlier in the same tick.
     */
    method CheckEntry(entry: Entry, dayName: string, now: int, ghost raisedBefore: seq<Occurrence>) returns (raisedHere: seq<Occurrence>)
      requires dayName == DayName(now)
      modifies this
      ensures TickState(fired, raisedBefore + raisedHere) == VisitEntry(TickState(old(fired), raisedBefore), entry, now)
      ensures activeAlert == LastAlert(raisedHere, old(activeAlert))
      ensures entries == old(entries) && remindersEnabled == old(remindersEnabled) && reminderLoop == old(reminderLoop)
    {
      raisedHere := [];
      if entry.day != dayName {
        assert raisedBefore + raisedHere == raisedBefore;
        return;
      }
      var startMinutes := TimeToMinutes(entry.start);
      ghost var afterStart := Trigger(TickState(fired, raisedBefore), entry, Start, startMinutes, now);
      TriggerAppends(TickState(fired, raisedBefore), entry, Start, startMinutes, now);
      var firesStart := MaybeTriggerReminder(entry, Start, startMinutes, now);
      if firesStart {
        raisedHere := raisedHere + [Occurrence(entry, Start, startMinutes.value)];
      }
      assert TickState(fired, raisedBefore + raisedHere) == afterStart;
      var endMinutes := TimeToMinutes(entry.end);
      ghost var afterEnd := Trigger(afterStart, entry, End, endMinutes, now);
      TriggerAppends(afterStart, entry, End, endMinutes, now);
      var firesEnd := MaybeTriggerReminder(entry, End, endMinutes, now);
      if firesEnd {
        raisedHere := raisedHere + [Occurrence(entry, End, endMinutes.value)];
      }
      assert TickState(fired, raisedBefore + raisedHere) == afterEnd;
    }

    /** `startReminderLoop`: when the tick is not yet scheduled, one tick runs at once and the tick is scheduled. */
    method StartReminderLoop(now: int) returns (raised: seq<Occurrence>)
      modifies this
      ensures reminderLoop
      ensures old(reminderLoop) ==> raised == [] && fired == old(fired) && activeAlert == old(activeAlert)
      ensures !old(reminderLoop) ==>
        var r := Tick(old(fired), old(entries), now, old(remindersEnabled));
        fired == r.fired && raised == r.raised && activeAlert == LastAlert(raised, old(activeAlert))
      ensures entries == old(entries) && remindersEnabled == old(remindersEnabled)
    {
      if reminderLoop {
        return [];
      }
      raised := CheckReminders(now);
      reminderLoop := true;
    }

    /** `stopReminderLoop`: the tick is no longer scheduled. */
    method StopReminderLoop()
      modifies this
      ensures !reminderLoop
      ensures entries == old(entries) && remindersEnabled == old(remindersEnabled)
      ensures activeAlert == old(activeAlert) && fired == old(fired)
    {
      if !reminderLoop {
        return;
      }
      reminderLoop := false;
    }

    /**
     * `setRemindersEnabled`. Turning reminders on schedules the tick and, if it
     * was not scheduled, runs one tick at once; turning them off unschedules
     * the tick and stops any alert. Either way the engine stays valid.
     */
    method SetRemindersEnabled(enabled: bool, now: int) returns (raised: seq<Occurrence>)
      modifies this
      ensures remindersEnabled == enabled && reminderLoop == enabled
      ensures !enabled ==> activeAlert == None && raised == [] && fired == old(fired)
      ensures enabled && old(reminderLoop) ==> raised == [] && fired == old(fired) && activeAlert == old(activeAlert)
      ensures enabled && !old(reminderLoop) ==>
        var r := Tick(old(fired), old(entries), now, true);
        fired == r.fired && raised == r.raised && activeAlert == LastAlert(raised, old(activeAlert))
      ensures entries == old(entries)
      ensures old(Valid()) ==> Valid()
    {
      remindersEnabled := enabled;
      if remindersEnabled {
        raised := StartReminderLoop(now);
        return;
      }
      StopReminderLoop();
      StopActiveReminderAlert();
      raised := [];
    }
  }
}

=== FILE: credentials.dfy ===
/**
 * The credential helpers: `normalizeUsername`, `normalizePassword` and
 * `hashCredential`, the 32-bit FNV-1a hash that keys a user's storage.
 */
module Credentials {
  import opened Wrappers
  import opened JsText

  /** `DEFAULT_USERNAME`. */
  const DEFAULT_USERNAME := "guest"

  /** The characters of `s` that are not white space, in order. */
  function NonWhite(s: string): string {
    if s == [] then []
    else if IsWhitespace(s[0]) then NonWhite(s[1..])
    else [s[0]] + NonWhite(s[1..])
  }

  lemma {:induction false} NonWhiteConcat(a: string, b: string)
    ensures NonWhite(a + b) == NonWhite(a) + NonWhite(b)
  {
    if a != [] {
      assert (a + b)[0] == a[0] && (a + b)[1..] == a[1..] + b;
      NonWhiteConcat(a[1..], b);
    } else {
      assert a + b == b;
    }
  }

  lemma {:induction false} NonWhiteOfBlank(s: string)
    requires AllWhitespace(s)
    ensures NonWhite(s) == []
  {
    if s != [] {
      assert AllWhitespace(s[1..]) by {
        forall i | 0 <= i < |s| - 1
          ensures IsWhitespace(s[1..][i])
        {
          assert s[1..][i] == s[i + 1];
        }
      }
      NonWhiteOfBlank(s[1..]);
    }
  }

  lemma {:induction false} NonWhiteOfTrimStart(s: string)
    ensures NonWhite(TrimStart(s)) == NonWhite(s)
  {
    if s != [] && IsWhitespace(s[0]) {
      NonWhiteOfTrimStart(s[1..]);
    }
  }

  /** Trimming drops no character that is not white space. */
  lemma NonWhiteOfTrim(s: string)
    ensures NonWhite(Trim(s)) == NonWhite(s)
  {
    var t := TrimStart(s);
    var r := TrimEnd(t);
    NonWhiteOfTrimStart(s);
    TrimEndDropsWhitespace(t);
    assert t == r + t[|r|..];
    NonWhiteConcat(r, t[|r|..]);
    NonWhiteOfBlank(t[|r|..]);
  }

  /**
   * `s.replace(/\s+/g, " ")`: every maximal run of white space becomes one
   * space. The characters that are not white space are kept, in order, and
   * the text begins and ends with white space exactly where `s` does.
   */
  function CollapseWhitespace(s: string): (r: string)
    ensures |r| <= |s|
    ensures r == [] <==> s == []
    ensures s != [] ==> (IsWhitespace(r[0]) <==> IsWhitespace(s[0]))
    ensures s != [] ==> (IsWhitespace(r[|r| - 1]) <==> IsWhitespace(s[|s| - 1]))
    decreases |s|
  {
    if s == [] then []
    else if IsWhitespace(s[0]) then
      var rest := TrimStart(s[1..]);
      TrimStartDropsWhitespace(s[1..]);
      assert rest == [] ==> s[1..] == [] || IsWhitespace(s[|s| - 1]) by {
        if rest == [] && s[1..] != [] {
          TrimStartOfBlank(s[1..]);
        }
      }
      var r := [' '] + CollapseWhitespace(rest);
      assert r[1..] == CollapseWhitespace(rest);
      r
    else
      var r := [s[0]] + CollapseWhitespace(s[1..]);
      assert r[1..] == CollapseWhitespace(s[1..]);
      r
  }

  /** Collapsing keeps every character that is not white space, in order. */
  lemma {:induction false} CollapseKeepsNonWhite(s: string)
    ensures NonWhite(CollapseWhitespace(s)) == NonWhite(s)
    decreases |s|
  {
    if s != [] {
      var r := CollapseWhitespace(s);
      if IsWhitespace(s[0]) {
        var rest := TrimStart(s[1..]);
        CollapseKeepsNonWhite(rest);
        NonWhiteOfTrimStart(s[1..]);
        assert r == [' '] + CollapseWhitespace(rest);
        assert r[1..] == CollapseWhitespace(rest);
      } else {
        CollapseKeepsNonWhite(s[1..]);
        assert r == [s[0]] + CollapseWhitespace(s[1..]);
        assert r[1..] == CollapseWhitespace(s[1..]);
      }
    }
  }

  /** White space in `s` is only single spaces, never two in a row. */
  predicate SingleSpaced(s: string) {
    forall i :: 0 <= i < |s| && IsWhitespace(s[i]) ==> s[i] == ' ' && (i + 1 < |s| ==> !IsWhitespace(s[i + 1]))
  }

  /** After collapsing, white space is single spaces, one at a time. */
  lemma {:induction false} CollapsedIsSingleSpaced(s: string)
    ensures SingleSpaced(CollapseWhitespace(s))
    decreases |s|
  {
    if s != [] {
      var r := CollapseWhitespace(s);
      if IsWhitespace(s[0]) {
        var rest := TrimStart(s[1..]);
        CollapsedIsSingleSpaced(rest);
        assert r == [' '] + CollapseWhitespace(rest);
      } else {
        CollapsedIsSingleSpaced(s[1..]);
        assert r == [s[0]] + CollapseWhitespace(s[1..]);
      }
    }
  }

  /** Collapsing leaves text that is already single-spaced as it is. */
  lemma {:induction false} CollapseKeepsSingleSpaced(s: string)
    requires SingleSpaced(s)
    ensures CollapseWhitespace(s) == s
    decreases |s|
  {
    if s != [] {
      assert SingleSpaced(s[1..]) by {
        forall i | 0 <= i < |s[1..]| && IsWhitespace(s[1..][i])
          ensures s[1..][i] == ' ' && (i + 1 < |s[1..]| ==> !IsWhitespace(s[1..][i + 1]))
        {
          assert s[1..][i] == s[i + 1];
        }
      }
      CollapseKeepsSingleSpaced(s[1..]);
      if IsWhitespace(s[0]) {
        assert s[1..] == [] || !IsWhitespace(s[1]);
        assert TrimStart(s[1..]) == s[1..];
      }
      assert s == [s[0]] + s[1..];
    }
  }

  lemma {:induction false} TrimStartOfBlank(s: string)
    requires s != [] && TrimStart(s) == []
    ensures IsWhitespace(s[|s| - 1])
  {
    if |s| > 1 {
      TrimStartOfBlank(s[1..]);
    }
  }

  /** Dropping the white space in front of `w + b`, where `w` is white space and `b` does not start with any, leaves `b`. */
  lemma {:induction false} TrimStartOverWhitespace(w: string, b: string)
    requires AllWhitespace(w)
    requires b == [] || !IsWhitespace(b[0])
    ensures TrimStart(w + b) == b
  {
    if w == [] {
      assert w + b == b;
    } else {
      assert (w + b)[0] == w[0] && (w + b)[1..] == w[1..] + b;
      assert AllWhitespace(w[1..]) by {
        forall i | 0 <= i < |w| - 1
          ensures IsWhitespace(w[1..][i])
        {
          assert w[1..][i] == w[i + 1];
        }
      }
      TrimStartOverWhitespace(w[1..], b);
    }
  }

  /** Text after a part that is not blank is kept by `TrimStart`. */
  lemma {:induction false} TrimStartConcat(x: string, y: string)
    requires TrimStart(x) != []
    ensures TrimStart(x + y) == TrimStart(x) + y
  {
    assert (x + y)[0] == x[0];
    if IsWhitespace(x[0]) {
      assert (x + y)[1..] == x[1..] + y;
      TrimStartConcat(x[1..], y);
    }
  }

  /** Text before a part that is not blank is kept by `TrimEnd`. */
  lemma {:induction false} TrimEndConcat(x: string, y: string)
    requires TrimEnd(y) != []
    ensures TrimEnd(x + y) == x + TrimEnd(y)
  {
    assert (x + y)[|x + y| - 1] == y[|y| - 1];
    if IsWhitespace(y[|y| - 1]) {
      assert (x + y)[..|x + y| - 1] == x + y[..|y| - 1];
      TrimEndConcat(x, y[..|y| - 1]);
    }
  }

  /** `TrimStart` of a text that ends in a character that is not white space keeps that character. */
  lemma {:induction false} TrimStartKeepsLast(x: string)
    requires x != [] && !IsWhitespace(x[|x| - 1])
    ensures TrimStart(x) != [] && TrimStart(x)[|TrimStart(x)| - 1] == x[|x| - 1]
  {
    if IsWhitespace(x[0]) {
      assert |x| > 1;
      TrimStartKeepsLast(x[1..]);
    }
  }

  /** `TrimEnd` of a text that starts with a character that is not white space keeps that character. */
  lemma {:induction false} TrimEndKeepsFirst(y: string)
    requires y != [] && !IsWhitespace(y[0])
    ensures TrimEnd(y) != [] && TrimEnd(y)[0] == y[0]
  {
    if IsWhitespace(y[|y| - 1]) {
      assert |y| > 1;
      TrimEndKeepsFirst(y[..|y| - 1]);
    }
  }

  /**
   * A maximal run `w` of white space, between text `a` that does not end in
   * white space and text `b` that does not start with any, becomes exactly one
   * space, and the text on either side collapses on its own.
   */
  lemma {:induction false} CollapseRun(a: string, w: string, b: string)
    requires w != [] && AllWhitespace(w)
    requires a == [] || !IsWhitespace(a[|a| - 1])
    requires b == [] || !IsWhitespace(b[0])
    ensures CollapseWhitespace(a + w + b) == CollapseWhitespace(a) + " " + CollapseWhitespace(b)
    decreases |a|, 1
  {
    if a == [] {
      CollapseRunAlone(a, w, b);
    } else if !IsWhitespace(a[0]) {
      CollapseRunAfterWord(a, w, b);
    } else {
      CollapseRunAfterBlank(a, w, b);
    }
  }

  lemma {:induction false} CollapseRunAfterWord(a: string, w: string, b: string)
    requires w != [] && AllWhitespace(w)
    requires a != [] && !IsWhitespace(a[0]) && !IsWhitespace(a[|a| - 1])
    requires b == [] || !IsWhitespace(b[0])
    ensures CollapseWhitespace(a + w + b) == CollapseWhitespace(a) + " " + CollapseWhitespace(b)
    decreases |a|, 0
  {
    var tail := a[1..];
    assert a == [a[0]] + tail;
    assert a + w + b == [a[0]] + (tail + w + b);
    assert tail == [] || tail[|tail| - 1] == a[|a| - 1];
    CollapseRun(tail, w, b);
    CollapseOfWord(a[0], tail);
    CollapseOfWord(a[0], tail + w + b);
    JoinAfter([a[0]], CollapseWhitespace(tail), CollapseWhitespace(b));
  }

  lemma {:induction false} CollapseRunAfterBlank(a: string, w: string, b: string)
    requires w != [] && AllWhitespace(w)
    requires a != [] && IsWhitespace(a[0]) && !IsWhitespace(a[|a| - 1])
    requires b == [] || !IsWhitespace(b[0])
    ensures CollapseWhitespace(a + w + b) == CollapseWhitespace(a) + " " + CollapseWhitespace(b)
    decreases |a|, 0
  {
    var tail := a[1..];
    var t := TrimStart(tail);
    assert a == [a[0]] + tail;
    assert a + w + b == [a[0]] + (tail + w + b);
    assert |a| > 1 && tail[|tail| - 1] == a[|a| - 1];
    TrimStartBeforeRun(tail, w + b);
    assert tail + (w + b) == tail + w + b && t + (w + b) == t + w + b;
    CollapseRun(t, w, b);
    CollapseOfBlank(a[0], tail);
    CollapseOfBlank(a[0], tail + w + b);
    JoinAfter([' '], CollapseWhitespace(t), CollapseWhitespace(b));
  }

  /** `TrimStart` of text that ends in a character that is not white space stops inside it. */
  lemma TrimStartBeforeRun(x: string, y: string)
    requires x != [] && !IsWhitespace(x[|x| - 1])
    ensures TrimStart(x) != [] && !IsWhitespace(TrimStart(x)[|TrimStart(x)| - 1])
    ensures TrimStart(x + y) == TrimStart(x) + y
  {
    TrimStartKeepsLast(x);
    TrimStartConcat(x, y);
  }

  lemma JoinAfter(p: string, x: string, y: string)
    ensures p + (x + " " + y) == (p + x) + " " + y
  {
  }

  /** A character that is not white space is kept in front of the rest, collapsed. */
  lemma CollapseOfWord(c: char, x: string)
    requires !IsWhitespace(c)
    ensures CollapseWhitespace([c] + x) == [c] + CollapseWhitespace(x)
  {
    assert ([c] + x)[1..] == x;
  }

  /** A white-space character becomes one space before the rest, its leading white space dropped and collapsed. */
  lemma CollapseOfBlank(c: char, x: string)
    requires IsWhitespace(c)
    ensures CollapseWhitespace([c] + x) == [' '] + CollapseWhitespace(TrimStart(x))
  {
    assert ([c] + x)[1..] == x;
  }

  /** A run of white space in front of text that does not start with any becomes one space. */
  lemma CollapseRunAlone(a: string, w: string, b: string)
    requires a == []
    requires w != [] && AllWhitespace(w)
    requires b == [] || !IsWhitespace(b[0])
    ensures CollapseWhitespace(a + w + b) == CollapseWhitespace(a) + " " + CollapseWhitespace(b)
  {
    var s := w + b;
    assert a + w + b == s;
    assert s[0] == w[0] && s[1..] == w[1..] + b;
    assert AllWhitespace(w[1..]) by {
      forall i | 0 <= i < |w| - 1
        ensures IsWhitespace(w[1..][i])
      {
        assert w[1..][i] == w[i + 1];
      }
    }
    TrimStartOverWhitespace(w[1..], b);
  }

  /** A normalized user name: never empty, no white space at either end, single spaces inside. */
  predicate IsNormalizedName(s: string) {
    s != [] && IsTrimmed(s) && SingleSpaced(s)
  }

  /**
   * `normalizeUsername`: a string is trimmed and its inner white-space runs
   * collapse to one space; a value that is not a string (None) or that
   * leaves nothing is the default user. A name keeps every character that is
   * not white space, in order.
   */
  function NormalizeUsername(value: Option<string>): (r: string)
    ensures IsNormalizedName(r)
    ensures value.None? ==> r == DEFAULT_USERNAME
    ensures value.Some? && NonWhite(value.value) == [] ==> r == DEFAULT_USERNAME
    ensures value.Some? && NonWhite(value.value) != [] ==> NonWhite(r) == NonWhite(value.value)
  {
    DefaultNameIsNormalized();
    if value.None? then DEFAULT_USERNAME
    else
      var trimmed := Trim(value.value);
      var cleaned := CollapseWhitespace(trimmed);
      CollapsedIsSingleSpaced(trimmed);
      NonWhiteOfTrim(value.value);
      CollapseKeepsNonWhite(trimmed);
      if cleaned == [] then DEFAULT_USERNAME else cleaned
  }

  lemma DefaultNameIsNormalized()
    ensures IsNormalizedName(DEFAULT_USERNAME)
  {
    forall i | 0 <= i < |DEFAULT_USERNAME|
      ensures !IsWhitespace(DEFAULT_USERNAME[i])
    {
      assert 'a' <= DEFAULT_USERNAME[i] <= 'z';
    }
  }

  /** A normalized name is its own normalization. */
  lemma NormalizedNameIsFixed(s: string)
    requires IsNormalizedName(s)
    ensures NormalizeUsername(Some(s)) == s
  {
    TrimOfTrimmed(s);
    CollapseKeepsSingleSpaced(s);
  }

  /** Normalizing a user name twice is normalizing it once. */
  lemma NormalizeUsernameIdempotent(value: Option<string>)
    ensures NormalizeUsername(Some(NormalizeUsername(value))) == NormalizeUsername(value)
  {
    NormalizedNameIsFixed(NormalizeUsername(value));
  }

  /** Text of white space only, or nothing, names the default user. */
  lemma BlankNameIsDefault(s: string)
    requires AllWhitespace(s)
    ensures NormalizeUsername(Some(s)) == DEFAULT_USERNAME
  {
    NonWhiteOfBlank(s);
  }

  /** A name of one word, whatever white space surrounds it, normalizes to that word. */
  lemma NormalizeOneWord(x: string)
    requires Trim(x) != []
    requires forall i :: 0 <= i < |Trim(x)| ==> !IsWhitespace(Trim(x)[i])
    ensures NormalizeUsername(Some(x)) == Trim(x)
  {
    CollapseKeepsSingleSpaced(Trim(x));
  }

  /**
   * Two names joined by any run of white space normalize to their
   * normalizations joined by one space.
   */
  lemma NormalizeJoinsNames(a: string, w: string, b: string)
    requires a != [] && !IsWhitespace(a[|a| - 1])
    requires w != [] && AllWhitespace(w)
    requires b != [] && !IsWhitespace(b[0])
    ensures NormalizeUsername(Some(a + w + b)) == NormalizeUsername(Some(a)) + " " + NormalizeUsername(Some(b))
  {
    TrimOfJoin(a, w, b);
    var ta, tb := Trim(a), Trim(b);
    CollapseRun(ta, w, tb);
    assert CollapseWhitespace(ta) != [] && CollapseWhitespace(tb) != [];
  }

  /** Trimming two texts joined by white space trims the front of the first and the back of the second. */
  lemma TrimOfJoin(a: string, w: string, b: string)
    requires a != [] && !IsWhitespace(a[|a| - 1])
    requires w != [] && AllWhitespace(w)
    requires b != [] && !IsWhitespace(b[0])
    ensures Trim(a + w + b) == Trim(a) + w + Trim(b)
    ensures Trim(a) != [] && !IsWhitespace(Trim(a)[|Trim(a)| - 1])
    ensures Trim(b) != [] && !IsWhitespace(Trim(b)[0])
  {
    var ta, tb := TrimStart(a), TrimEnd(b);
    TrimStartKeepsLast(a);
    TrimEndKeepsFirst(b);
    TrimStartConcat(a, w + b);
    assert a + w + b == a + (w + b);
    TrimEndConcat(ta + w, b);
    assert ta + (w + b) == ta + w + b;
    assert TrimEnd(ta) == ta;
    assert TrimStart(b) == b;
  }

  /**
   * `normalizePassword`: a string with the white space at both ends dropped
   * and nothing else changed; anything else is empty.
   */
  function NormalizePassword(value: Option<string>): (r: string)
    ensures value.None? ==> r == []
    ensures value.Some? ==> IsTrimOf(r, value.value)
    ensures value.Some? && IsTrimmed(value.value) ==> r == value.value
  {
    if value.None? then []
    else
      TrimIsTrimOf(value.value);
      Trim(value.value)
  }

  predicate IsAsciiUpper(c: char) {
    'A' <= c <= 'Z'
  }

  /** `c` and `d` are the same character up to the case of an ASCII letter. */
  predicate SameIgnoringAsciiCase(c: char, d: char) {
    || c == d
    || (IsAsciiUpper(c) && d as int == c as int + 32)
    || (IsAsciiUpper(d) && c as int == d as int + 32)
  }

  /**
   * `String.prototype.toLowerCase` on the ASCII letters: no capital is left,
   * and every character is the one it replaces up to case.
   */
  function LowerAscii(s: string): (r: string)
    ensures |r| == |s|
    ensures forall i :: 0 <= i < |r| ==> !IsAsciiUpper(r[i])
    ensures forall i :: 0 <= i < |s| ==> SameIgnoringAsciiCase(s[i], r[i])
  {
    seq(|s|, i requires 0 <= i < |s| => if IsAsciiUpper(s[i]) then (s[i] as int + 32) as char else s[i])
  }

  /**
   * Two texts lower-case alike exactly when they differ only in the case of
   * ASCII letters, so such user names share a credential hash.
   */
  lemma LowerAsciiIgnoresCase(a: string, b: string)
    ensures LowerAscii(a) == LowerAscii(b) <==>
      |a| == |b| && forall i :: 0 <= i < |a| ==> SameIgnoringAsciiCase(a[i], b[i])
  {
    var la, lb := LowerAscii(a), LowerAscii(b);
    if la == lb {
      forall i | 0 <= i < |a|
        ensures SameIgnoringAsciiCase(a[i], b[i])
      {
        assert SameIgnoringAsciiCase(a[i], la[i]) && SameIgnoringAsciiCase(b[i], lb[i]);
        assert !IsAsciiUpper(la[i]);
      }
    }
    if |a| == |b| && forall i :: 0 <= i < |a| ==> SameIgnoringAsciiCase(a[i], b[i]) {
      forall i | 0 <= i < |a|
        ensures la[i] == lb[i]
      {
        assert SameIgnoringAsciiCase(a[i], b[i]);
      }
    }
  }

  /** The text `hashCredential` hashes: the normalized, lower-cased name, "::", the password. */
  function CredentialSource(username: string, password: string): string {
    LowerAscii(NormalizeUsername(Some(username))) + "::" + password
  }

  /** The 32-bit FNV-1a offset basis, the starting value of `hash`. */
  const FNV_OFFSET_BASIS: bv32 := 0x811C_9DC5

  /** `charCodeAt`: a character's code unit. */
  function CodeUnit(c: char): bv32 {
    (c as int) as bv32
  }

  /** `hash += (hash << 1) + (hash << 4) + (hash << 7) + (hash << 8) + (hash << 24)`, modulo 2^32. */
  function Mix(h: bv32): bv32 {
    h + (h << 1) + (h << 4) + (h << 7) + (h << 8) + (h << 24)
  }

  /** One turn of the loop: xor in a code unit, then mix. */
  function LoopStep(h: bv32, u: bv32): bv32 {
    Mix(h ^ u)
  }

  /** The code units of `s`, one per character. */
  function CodeUnits(s: string): (units: seq<bv32>)
    ensures |units| == |s|
  {
    seq(|s|, i requires 0 <= i < |s| => CodeUnit(s[i]))
  }

  /** The hash the loop ends with when it starts from `h` and reads `units`. */
  function HashFrom(h: bv32, units: seq<bv32>): bv32
    decreases |units|
  {
    if units == [] then h else HashFrom(LoopStep(h, units[0]), units[1..])
  }

  /** One FNV-1a step: xor in a code unit, then multiply by the 32-bit FNV prime 2^24 + 2^8 + 0x93. */
  function FnvStep(h: bv32, u: bv32): bv32 {
    (h ^ u) * 0x0100_0193
  }

  /** FNV-1a as it is usually stated, from hash `h` over `units`. */
  function Fnv1aFrom(h: bv32, units: seq<bv32>): bv32
    decreases |units|
  {
    if units == [] then h else Fnv1aFrom(FnvStep(h, units[0]), units[1..])
  }

  /** The 32-bit FNV-1a hash of a text's code units. */
  function Fnv1a(s: string): bv32 {
    Fnv1aFrom(FNV_OFFSET_BASIS, CodeUnits(s))
  }

  /** The shifts add up to a multiplication by the FNV prime. */
  lemma MixIsFnvPrime(h: bv32)
    ensures Mix(h) == h * 0x0100_0193
  {
  }

  lemma MixXorIsFnvPrime(h: bv32, u: bv32)
    ensures Mix(h ^ u) == (h ^ u) * 0x0100_0193
  {
    MixIsFnvPrime(h ^ u);
  }

  /** A turn of the loop is a step of FNV-1a. */
  lemma LoopStepIsFnvStep(h: bv32, u: bv32)
    ensures LoopStep(h, u) == FnvStep(h, u)
  {
    MixXorIsFnvPrime(h, u);
  }

  /** The loop computes 32-bit FNV-1a, from any starting hash. */
  lemma {:induction false} HashIsFnv1a(h: bv32, units: seq<bv32>)
    ensures HashFrom(h, units) == Fnv1aFrom(h, units)
    decreases |units|
  {
    if units != [] {
      LoopStepIsFnvStep(h, units[0]);
      HashIsFnv1a(LoopStep(h, units[0]), units[1..]);
    }
  }

  /** What is left to hash after one more code unit is read. */
  lemma HashFromStep(h: bv32, units: seq<bv32>, index: nat)
    requires index < |units|
    ensures HashFrom(h, units[index..]) == HashFrom(Mix(h ^ units[index]), units[index + 1..])
  {
    assert units[index..][1..] == units[index + 1..];
  }

  predicate IsBase36Digit(c: char) {
    '0' <= c <= '9' || 'a' <= c <= 'z'
  }

  function Base36Digit(d: nat): (c: char)
    requires d < 36
    ensures IsBase36Digit(c)
  {
    if d < 10 then ('0' as int + d) as char else ('a' as int + d - 10) as char
  }

  function Base36Value(c: char): (d: nat)
    requires IsBase36Digit(c)
    ensures d < 36
  {
    if c <= '9' then c as int - '0' as int else c as int - 'a' as int + 10
  }

  /** `n.toString(36)`: base-36 digits in lower case, no leading zero. */
  function ToBase36(n: nat): (r: string)
    ensures |r| >= 1 && (forall i :: 0 <= i < |r| ==> IsBase36Digit(r[i]))
    ensures |r| > 1 ==> r[0] != '0'
  {
    if n < 36 then [Base36Digit(n)] else ToBase36(n / 36) + [Base36Digit(n % 36)]
  }

  /** The number a text of base-36 digits denotes. */
  function FromBase36(s: string): nat
    requires forall i :: 0 <= i < |s| ==> IsBase36Digit(s[i])
  {
    if s == [] then 0 else 36 * FromBase36(s[..|s| - 1]) + Base36Value(s[|s| - 1])
  }

  /** Reading the base-36 text back gives the number. */
  lemma {:induction false} Base36RoundTrip(n: nat)
    ensures FromBase36(ToBase36(n)) == n
  {
    var r := ToBase36(n);
    if n < 36 {
      assert r[..0] == [];
    } else {
      Base36RoundTrip(n / 36);
      assert r[..|r| - 1] == ToBase36(n / 36);
    }
  }

  /** Different hashes never print alike. */
  lemma Base36Injective(a: nat, b: nat)
    requires ToBase36(a) == ToBase36(b)
    ensures a == b
  {
    Base36RoundTrip(a);
    Base36RoundTrip(b);
  }

  /**
   * `hashCredential`: the FNV-1a hash of the credential text, as an unsigned
   * 32-bit number printed in base 36.
   */
  method HashCredential(username: string, password: string) returns (r: string)
    ensures r == ToBase36(Fnv1a(CredentialSource(username, password)) as nat)
  {
    var source := CredentialSource(username, password);
    var hash := HashCodeUnits(CodeUnits(source));
    r := ToBase36(hash as nat);
  }

  /** The loop of `hashCredential` over the code units of the text: 32-bit FNV-1a. */
  method HashCodeUnits(units: seq<bv32>) returns (hash: bv32)
    ensures hash == Fnv1aFrom(FNV_OFFSET_BASIS, units)
  {
    hash := FNV_OFFSET_BASIS;
    var index := 0;
    while index < |units|
      invariant 0 <= index <= |units|
      invariant HashFrom(hash, units[index..]) == HashFrom(FNV_OFFSET_BASIS, units)
    {
      HashFromStep(hash, units, index);
      hash := hash ^ units[index];
      hash := Mix(hash);
      index := index + 1;
    }
    assert units[|units|..] == [];
    HashIsFnv1a(FNV_OFFSET_BASIS, units);
  }
}

=== FILE: date_key.dfy ===
/**
 * `toLocalDateKey`: the "YYYY-MM-DD" text that dates a fired reminder.
 * Pruning compares these texts with JavaScript's string `>=`; this module shows
 * that the text holds no ':' (so `key.split(":")[0]` is the whole date) and that,
 * for four-digit years, comparing the texts is comparing the dates. That is what
 * lets the rest of the model date a fired reminder by its day number.
 */
module DateKeys {
  import opened JsText

  /**
   * `toLocalDateKey` of a date whose `getFullYear()`, `getMonth() + 1` and
   * `getDate()` are given. The key never contains ':', so the first
   * ':'-separated field of a fired-event key is its date.
   */
  function DateKey(year: nat, month: nat, day: nat): (r: string)
    ensures ':' !in r
  {
    NoColonInDecimal(year);
    NoColonInPadded(NatToDecimal(month));
    NoColonInPadded(NatToDecimal(day));
    NatToDecimal(year) + "-" + PadStart(NatToDecimal(month), 2, '0') + "-" + PadStart(NatToDecimal(day), 2, '0')
  }

  predicate ValidDate(year: nat, month: nat, day: nat) {
    1000 <= year <= 9999 && 1 <= month <= 12 && 1 <= day <= 31
  }

  /** Calendar order of two dates. */
  predicate DateLe(y1: nat, m1: nat, d1: nat, y2: nat, m2: nat, d2: nat) {
    y1 < y2 || (y1 == y2 && (m1 < m2 || (m1 == m2 && d1 <= d2)))
  }

  lemma NoColonInPadded(s: string)
    requires AllDigits(s)
    ensures ':' !in PadStart(s, 2, '0')
  {
    var r := PadStart(s, 2, '0');
    forall i | 0 <= i < |r|
      ensures r[i] != ':'
    {
      if i >= |r| - |s| {
        assert r[i] == s[i - (|r| - |s|)];
        assert IsDigit(s[i - (|r| - |s|)]);
      }
    }
  }

  lemma NoColonInDecimal(n: nat)
    ensures ':' !in NatToDecimal(n)
  {
    var y := NatToDecimal(n);
    forall i | 0 <= i < |y|
      ensures y[i] != ':'
    {
      assert IsDigit(y[i]);
    }
  }

  /** Comparing two texts that start with parts of equal length. */
  lemma {:induction false} LexLeConcat(a: string, b: string, c: string, d: string)
    requires |a| == |c|
    ensures LexLe(a + b, c + d) == if a == c then LexLe(b, d) else LexLe(a, c)
  {
    if a == [] {
      assert a + b == b && c + d == d;
    } else {
      assert (a + b)[0] == a[0] && (c + d)[0] == c[0];
      assert (a + b)[1..] == a[1..] + b;
      assert (c + d)[1..] == c[1..] + d;
      LexLeConcat(a[1..], b, c[1..], d);
      if a[0] == c[0] {
        assert a == [a[0]] + a[1..] && c == [c[0]] + c[1..];
      }
    }
  }

  /** Fixed-width decimal renderings compare as the numbers they render. */
  lemma {:induction false} LexLeDigits(x: nat, y: nat, w: nat)
    requires x < Pow10(w) && y < Pow10(w)
    ensures LexLe(Digits(x, w), Digits(y, w)) <==> x <= y
    ensures Digits(x, w) == Digits(y, w) <==> x == y
  {
    DigitsValueOfDigits(x, w);
    DigitsValueOfDigits(y, w);
    if w > 0 {
      var cx, cy := DigitChar(x % 10), DigitChar(y % 10);
      assert x / 10 < Pow10(w - 1) && y / 10 < Pow10(w - 1);
      LexLeDigits(x / 10, y / 10, w - 1);
      LexLeConcat(Digits(x / 10, w - 1), [cx], Digits(y / 10, w - 1), [cy]);
      assert LexLe([cx], [cy]) <==> x % 10 <= y % 10 by {
        assert [cx][1..] == [] && [cy][1..] == [];
      }
    }
  }

  lemma DateKeyParts(year: nat, month: nat, day: nat)
    requires ValidDate(year, month, day)
    ensures DateKey(year, month, day) == Digits(year, 4) + (['-'] + (Digits(month, 2) + (['-'] + Digits(day, 2))))
  {
    assert Pow10(3) == 1000 && Pow10(4) == 10000 by {
      assert Pow10(1) == 10 && Pow10(2) == 100;
    }
    var y, m, d := NatToDecimal(year), PadStart(NatToDecimal(month), 2, '0'), PadStart(NatToDecimal(day), 2, '0');
    assert y == Digits(year, 4) by {
      DecimalIsDigits(year, 4);
    }
    assert m == Digits(month, 2) by {
      PadStartTwoDigits(month);
    }
    assert d == Digits(day, 2) by {
      PadStartTwoDigits(day);
    }
    Regroup(y, m, d);
  }

  lemma Regroup(y: string, m: string, d: string)
    ensures y + "-" + m + "-" + d == y + (['-'] + (m + (['-'] + d)))
  {
  }

  /**
   * For dates in years 1000-9999, the string order of their keys is the calendar
   * order of the dates: `key >= cutoffKey` at pruning means "on or after the cutoff date".
   */
  lemma DateKeyOrder(y1: nat, m1: nat, d1: nat, y2: nat, m2: nat, d2: nat)
    requires ValidDate(y1, m1, d1) && ValidDate(y2, m2, d2)
    ensures LexLe(DateKey(y1, m1, d1), DateKey(y2, m2, d2)) <==> DateLe(y1, m1, d1, y2, m2, d2)
  {
    DateKeyParts(y1, m1, d1);
    DateKeyParts(y2, m2, d2);
    var dash := ['-'];
    var day1, day2 := Digits(d1, 2), Digits(d2, 2);
    var month1, month2 := Digits(m1, 2) + (dash + day1), Digits(m2, 2) + (dash + day2);
    LexLeDigits(y1, y2, 4);
    LexLeDigits(m1, m2, 2);
    LexLeDigits(d1, d2, 2);
    LexLeConcat(Digits(y1, 4), dash + month1, Digits(y2, 4), dash + month2);
    LexLeConcat(dash, month1, dash, month2);
    LexLeConcat(Digits(m1, 2), dash + day1, Digits(m2, 2), dash + day2);
    LexLeConcat(dash, day1, dash, day2);
  }
}

=== FILE: firing.dfy ===
/**
 * What one reminder tick does to the set of fired-event keys, as pure
 * functions: `maybeTriggerReminder` on one event, `checkReminders` over the
 * timetable, and `pruneFiredReminderEvents`. The controller's methods are
 * proved against these.
 *
 * A fired-event key is the text `date:id:type:minutes`; here it is the tuple
 * of its four parts, with the date as a day number. Pruning compares only the
 * date part of the text, which is a whole "YYYY-MM-DD" key because a date key
 * holds no ':', and comparing two such keys as strings compares the dates
 * (both shown in module DateKeys).
 */
module Firing {
  import opened Wrappers
  import opened JsText
  import opened TimeParse
  import opened Schedule
  import opened DateKeys

  /** `REMINDER_GRACE_MINUTES`: how long after its minute an event may still fire. */
  const GRACE_MINUTES := 2
  /** How many days back a fired-event key is kept. */
  const RETENTION_DAYS := 14

  /** The dedup key of a fired event: date, entry id, kind and minute of the day. */
  datatype FiredKey = FiredKey(day: int, entryId: string, kind: Kind, minutes: int)

  /** An event that fired: the entry, which of its events, and that event's minute. */
  datatype Occurrence = Occurrence(entry: Entry, kind: Kind, minutes: int)

  function KeyOf(o: Occurrence, day: int): FiredKey {
    FiredKey(day, o.entry.id, o.kind, o.minutes)
  }

  /** The window check of `maybeTriggerReminder`: the event's minute up to two minutes later. */
  predicate InWindow(eventMinutes: int, nowMinutes: int) {
    eventMinutes <= nowMinutes <= eventMinutes + GRACE_MINUTES
  }

  /**
   * The same check as written, on what `timeToMinutes` returns as written:
   * `null` never passes, and NaN always does, because both comparisons with
   * NaN are false.
   */
  predicate InWindowAsWritten(eventMinutes: TimeValue, nowMinutes: int) {
    match eventMinutes
    case Null => false
    case NotANumber => true
    case Minutes(m) => InWindow(m, nowMinutes)
  }

  /**
   * `pruneFiredReminderEvents`: keeps the keys dated on or after the day
   * fourteen days before `today`.
   */
  function Prune(fired: set<FiredKey>, today: int): set<FiredKey> {
    set k | k in fired && k.day >= today - RETENTION_DAYS
  }

  /** The name `checkReminders` compares entry days with: `DAY_NAMES[now.getDay()]`. */
  function DayName(now: int): string {
    DAY_NAMES[Weekday(DayOf(now))]
  }

  /**
   * An entry is for today, by `checkReminders`' name test, exactly when its day
   * name stands for today's weekday, by the projector's `DAY_NAME_TO_INDEX`.
   */
  lemma DayNameMatchesDayIndex(name: string, now: int)
    ensures name == DayName(now) <==> DayIndex(name) == Some(Weekday(DayOf(now)))
  {
    DayIndexInvertsDayNames(name);
  }

  /** The state a tick threads through: the fired keys and the events fired so far. */
  datatype TickState = TickState(fired: set<FiredKey>, raised: seq<Occurrence>)

  /**
   * `maybeTriggerReminder` on event `kind` of `entry`, whose minute is
   * `eventMinutes` (None for `null`): outside the window, or when the key is
   * already recorded, nothing changes; otherwise the key is recorded, the set
   * is pruned as it is persisted, and the event fires.
   */
  function Trigger(st: TickState, entry: Entry, kind: Kind, eventMinutes: Option<int>, now: int): TickState {
    if eventMinutes.None? || !InWindow(eventMinutes.value, MinuteOfDay(now)) then st
    else
      var key := FiredKey(DayOf(now), entry.id, kind, eventMinutes.value);
      if key in st.fired then st
      else TickState(Prune(st.fired + {key}, DayOf(now)), st.raised + [Occurrence(entry, kind, eventMinutes.value)])
  }

  /** The callback of `checkReminders` for one entry: only an entry for today is looked at, start first. */
  function VisitEntry(st: TickState, entry: Entry, now: int): TickState {
    if entry.day != DayName(now) then st
    else
      var afterStart := Trigger(st, entry, Start, TimeToMinutes(entry.start), now);
      Trigger(afterStart, entry, End, TimeToMinutes(entry.end), now)
  }

  /** The entries visited in order. */
  function TickOver(st: TickState, entries: seq<Entry>, now: int): TickState {
    if entries == [] then st
    else VisitEntry(TickOver(st, entries[..|entries| - 1], now), entries[|entries| - 1], now)
  }

  /** `checkReminders`: nothing at all when reminders are off or the timetable is empty. */
  function Tick(fired: set<FiredKey>, entries: seq<Entry>, now: int, enabled: bool): TickState {
    if !enabled || |entries| == 0 then TickState(fired, [])
    else TickOver(TickState(fired, []), entries, now)
  }

  // ---------------------------------------------------------------------------
  // The events that are due at a tick

  /** The key event `kind` of `entry` fires under at `now`, if it is due: its time parses and `now` is in its window. */
  function DueKey(entry: Entry, kind: Kind, eventMinutes: Option<int>, now: int): Option<FiredKey> {
    if eventMinutes.Some? && InWindow(eventMinutes.value, MinuteOfDay(now))
    then Some(FiredKey(DayOf(now), entry.id, kind, eventMinutes.value))
    else None
  }

  function AsSet(k: Option<FiredKey>): set<FiredKey> {
    if k.Some? then {k.value} else {}
  }

  /** The keys of the events of one entry that are due at `now`. */
  function EntryDueKeys(entry: Entry, now: int): set<FiredKey> {
    if entry.day != DayName(now) then {}
    else AsSet(DueKey(entry, Start, TimeToMinutes(entry.start), now)) + AsSet(DueKey(entry, End, TimeToMinutes(entry.end), now))
  }

  /** The keys of all events due at `now`. */
  function DueKeys(entries: seq<Entry>, now: int): set<FiredKey> {
    if entries == [] then {}
    else DueKeys(entries[..|entries| - 1], now) + EntryDueKeys(entries[|entries| - 1], now)
  }

  function KeySet(raised: seq<Occurrence>, day: int): set<FiredKey> {
    set o | o in raised :: KeyOf(o, day)
  }

  /** No two events raised share a key. */
  predicate DistinctKeys(raised: seq<Occurrence>, day: int) {
    forall i, j :: 0 <= i < j < |raised| ==> KeyOf(raised[i], day) != KeyOf(raised[j], day)
  }

  /**
   * The state of a tick that started from the fired set `fired0` and has
   * visited events whose due keys are `due`: the events raised are exactly
   * the due ones not fired before, once each, and the fired set is unchanged
   * when none was raised and otherwise is the old and due keys, pruned.
   */
  ghost predicate Summary(st: TickState, fired0: set<FiredKey>, due: set<FiredKey>, day: int) {
    && KeySet(st.raised, day) == due - fired0
    && DistinctKeys(st.raised, day)
    && st.fired == if st.raised == [] then fired0 else Prune(fired0 + due, day)
  }

  // ---------------------------------------------------------------------------
  // Pruning

  /** Pruning twice with the same day is pruning once. */
  lemma PruneIdempotent(fired: set<FiredKey>, today: int)
    ensures Prune(Prune(fired, today), today) == Prune(fired, today)
  {
  }

  /**
   * `Prune` is the test `key.split(":")[0] >= cutoffKey` on the key text. A key
   * dated `y-m-d` is written `DateKey(y, m, d) + ":" + rest`, and the cutoff
   * key is that of the date fourteen days before today. For years 1000-9999,
   * whenever the calendar puts `y-m-d` on or after the cutoff date exactly when
   * the key's day is on or after `today - 14`, the key survives `Prune`
   * exactly when it survives the string test.
   */
  lemma PruneIsDateKeyTest(fired: set<FiredKey>, today: int, k: FiredKey, rest: string,
                           y: nat, m: nat, d: nat, cy: nat, cm: nat, cd: nat)
    requires ValidDate(y, m, d) && ValidDate(cy, cm, cd)
    requires DateLe(cy, cm, cd, y, m, d) <==> today - RETENTION_DAYS <= k.day
    ensures k in Prune(fired, today) <==>
      k in fired && LexLe(DateKey(cy, cm, cd), BeforeColon(DateKey(y, m, d) + ":" + rest))
  {
    SplitAtFirstColon(DateKey(y, m, d), rest);
    DateKeyOrder(cy, cm, cd, y, m, d);
  }

  /** Pruning, adding keys, and pruning again is adding and pruning once. */
  lemma PruneAbsorbs(a: set<FiredKey>, b: set<FiredKey>, today: int)
    ensures Prune(Prune(a, today) + b, today) == Prune(a + b, today)
  {
  }

  /** A later pruning makes an earlier one redundant. */
  lemma PruneLaterSubsumes(fired: set<FiredKey>, earlier: int, later: int)
    requires earlier <= later
    ensures Prune(Prune(fired, earlier), later) == Prune(fired, later)
  {
  }

  // ---------------------------------------------------------------------------
  // One event

  /** `maybeTriggerReminder` changes nothing unless the event's time parses and `now` is in its window. */
  lemma TriggerOnlyInWindow(st: TickState, entry: Entry, kind: Kind, eventMinutes: Option<int>, now: int)
    ensures DueKey(entry, kind, eventMinutes, now).None? ==> Trigger(st, entry, kind, eventMinutes, now) == st
    ensures Trigger(st, entry, kind, eventMinutes, now) != st ==>
      && DueKey(entry, kind, eventMinutes, now).Some?
      && DueKey(entry, kind, eventMinutes, now).value !in st.fired
  {
  }

  /** What one call fires does not depend on what fired before it in the tick; it is appended. */
  lemma TriggerAppends(st: TickState, entry: Entry, kind: Kind, eventMinutes: Option<int>, now: int)
    ensures var alone := Trigger(TickState(st.fired, []), entry, kind, eventMinutes, now);
      Trigger(st, entry, kind, eventMinutes, now) == TickState(alone.fired, st.raised + alone.raised)
  {
  }

  /** Calling `maybeTriggerReminder` twice with the same arguments is calling it once. */
  lemma TriggerTwiceIsOnce(st: TickState, entry: Entry, kind: Kind, eventMinutes: Option<int>, now: int)
    ensures var once := Trigger(st, entry, kind, eventMinutes, now);
      Trigger(once, entry, kind, eventMinutes, now) == once
  {
  }

  /** A due event whose key is not yet recorded fires, and its key is recorded afterwards. */
  lemma TriggerFiresFresh(st: TickState, entry: Entry, kind: Kind, eventMinutes: Option<int>, now: int)
    requires DueKey(entry, kind, eventMinutes, now).Some?
    ensures DueKey(entry, kind, eventMinutes, now).value in Trigger(st, entry, kind, eventMinutes, now).fired
    ensures DueKey(entry, kind, eventMinutes, now).value !in st.fired ==>
      Trigger(st, entry, kind, eventMinutes, now).raised == st.raised + [Occurrence(entry, kind, eventMinutes.value)]
  {
  }

  // ---------------------------------------------------------------------------
  // A whole tick

  lemma KeySetSnoc(raised: seq<Occurrence>, o: Occurrence, day: int)
    ensures KeySet(raised + [o], day) == KeySet(raised, day) + {KeyOf(o, day)}
  {
    assert forall x :: x in raised + [o] <==> x in raised || x == o;
  }

  /** One `maybeTriggerReminder` call keeps the summary, with its due key added. */
  lemma {:induction false} TriggerKeepsSummary(st: TickState, fired0: set<FiredKey>, due: set<FiredKey>,
                                               entry: Entry, kind: Kind, eventMinutes: Option<int>, now: int)
    requires Summary(st, fired0, due, DayOf(now))
    ensures Summary(Trigger(st, entry, kind, eventMinutes, now), fired0,
                    due + AsSet(DueKey(entry, kind, eventMinutes, now)), DayOf(now))
  {
    var day := DayOf(now);
    var d := DueKey(entry, kind, eventMinutes, now);
    if d.Some? {
      var key := d.value;
      var st' := Trigger(st, entry, kind, eventMinutes, now);
      if key in st.fired {
        assert st' == st;
        assert key in fired0 + due;
      } else {
        var o := Occurrence(entry, kind, eventMinutes.value);
        assert KeyOf(o, day) == key;
        if st.raised == [] {
          assert KeySet(st.raised, day) == {};
          assert st.fired == fired0;
          assert due - fired0 == {};
          assert key !in due - fired0;
        } else {
          assert key.day >= day - RETENTION_DAYS;
        }
        assert key !in fired0 + due;
        KeySetSnoc(st.raised, o, day);
        assert key !in KeySet(st.raised, day);
        forall i | 0 <= i < |st.raised|
          ensures KeyOf(st.raised[i], day) != key
        {
          assert st.raised[i] in st.raised;
        }
        if st.raised != [] {
          PruneAbsorbs(fired0 + due, {key}, day);
        }
      }
    }
  }

  /** One entry visited keeps the summary, with its due keys added. */
  lemma VisitKeepsSummary(st: TickState, fired0: set<FiredKey>, due: set<FiredKey>, entry: Entry, now: int)
    requires Summary(st, fired0, due, DayOf(now))
    ensures Summary(VisitEntry(st, entry, now), fired0, due + EntryDueKeys(entry, now), DayOf(now))
  {
    if entry.day == DayName(now) {
      var s := TimeToMinutes(entry.start);
      var e := TimeToMinutes(entry.end);
      TriggerKeepsSummary(st, fired0, due, entry, Start, s, now);
      var afterStart := Trigger(st, entry, Start, s, now);
      var due' := due + AsSet(DueKey(entry, Start, s, now));
      TriggerKeepsSummary(afterStart, fired0, due', entry, End, e, now);
      assert due' + AsSet(DueKey(entry, End, e, now)) == due + EntryDueKeys(entry, now);
    } else {
      assert due + EntryDueKeys(entry, now) == due;
    }
  }

  /** The whole tick: from a fired set `fired` and no event raised, visiting the entries gives the summary. */
  lemma {:induction false} TickOverSummary(fired: set<FiredKey>, entries: seq<Entry>, now: int)
    ensures Summary(TickOver(TickState(fired, []), entries, now), fired, DueKeys(entries, now), DayOf(now))
  {
    if entries == [] {
      assert KeySet([], DayOf(now)) == {};
    } else {
      var init := entries[..|entries| - 1];
      TickOverSummary(fired, init, now);
      VisitKeepsSummary(TickOver(TickState(fired, []), init, now), fired, DueKeys(init, now), entries[|entries| - 1], now);
    }
  }

  /** Every due key is dated today. */
  lemma {:induction false} DueKeysAreToday(entries: seq<Entry>, now: int)
    ensures forall k :: k in DueKeys(entries, now) ==> k.day == DayOf(now)
  {
    if entries != [] {
      DueKeysAreToday(entries[..|entries| - 1], now);
    }
  }

  /** A key is due exactly when it is due for one of the entries. */
  lemma DueKeysExactly(entries: seq<Entry>, now: int, k: FiredKey)
    ensures k in DueKeys(entries, now) <==> exists j :: 0 <= j < |entries| && k in EntryDueKeys(entries[j], now)
  {
    var f := e => EntryDueKeys(e, now);
    DueKeysIsUnion(entries, now);
    UnionOverExactly(entries, f, k);
    assert forall j :: 0 <= j < |entries| ==> f(entries[j]) == EntryDueKeys(entries[j], now);
  }

  /** The union of `f` over the entries, in order. */
  function UnionOver(entries: seq<Entry>, f: Entry -> set<FiredKey>): set<FiredKey> {
    if entries == [] then {} else UnionOver(entries[..|entries| - 1], f) + f(entries[|entries| - 1])
  }

  lemma {:induction false} UnionOverExactly(entries: seq<Entry>, f: Entry -> set<FiredKey>, k: FiredKey)
    ensures k in UnionOver(entries, f) <==> exists j :: 0 <= j < |entries| && k in f(entries[j])
  {
    if entries != [] {
      var init := entries[..|entries| - 1];
      UnionOverExactly(init, f, k);
      if k in UnionOver(init, f) {
        var j :| 0 <= j < |init| && k in f(init[j]);
        assert entries[j] == init[j];
      } else if k !in f(entries[|entries| - 1]) {
        forall j | 0 <= j < |entries|
          ensures k !in f(entries[j])
        {
          if j < |init| {
            assert entries[j] == init[j];
          }
        }
      }
    }
  }

  lemma {:induction false} DueKeysIsUnion(entries: seq<Entry>, now: int)
    ensures DueKeys(entries, now) == UnionOver(entries, e => EntryDueKeys(e, now))
  {
    if entries != [] {
      DueKeysIsUnion(entries[..|entries| - 1], now);
    }
  }

  /**
   * At-most-once firing: a tick raises exactly the due events whose keys were
   * not fired before, no two with the same key, and its fired set is the old
   * one when nothing was raised and otherwise the old and due keys, pruned.
   */
  lemma TickFiresOnlyFresh(fired: set<FiredKey>, entries: seq<Entry>, now: int, enabled: bool)
    ensures var r := Tick(fired, entries, now, enabled);
      && KeySet(r.raised, DayOf(now)) == (if enabled then DueKeys(entries, now) else {}) - fired
      && DistinctKeys(r.raised, DayOf(now))
      && r.fired == if r.raised == [] then fired else Prune(fired + DueKeys(entries, now), DayOf(now))
  {
    if enabled && |entries| > 0 {
      TickOverSummary(fired, entries, now);
    } else {
      assert KeySet([], DayOf(now)) == {};
      if enabled {
        assert DueKeys(entries, now) == {};
      }
    }
  }

  /** After a tick, every key due at that tick is recorded. */
  lemma TickRecordsDue(fired: set<FiredKey>, entries: seq<Entry>, now: int)
    ensures DueKeys(entries, now) <= Tick(fired, entries, now, true).fired
  {
    TickFiresOnlyFresh(fired, entries, now, true);
    DueKeysAreToday(entries, now);
    var r := Tick(fired, entries, now, true);
    if r.raised == [] {
      assert KeySet(r.raised, DayOf(now)) == {};
    }
  }

  lemma EmptyKeySet(raised: seq<Occurrence>, day: int)
    ensures raised == [] <==> KeySet(raised, day) == {}
  {
    if raised != [] {
      assert raised[0] in raised;
      assert KeyOf(raised[0], day) in KeySet(raised, day);
    }
  }

  /** A second tick at the same minute raises nothing and changes nothing. */
  lemma SecondTickIsSilent(fired: set<FiredKey>, entries: seq<Entry>, now: int, enabled: bool)
    ensures var once := Tick(fired, entries, now, enabled);
      Tick(once.fired, entries, now, enabled) == TickState(once.fired, [])
  {
    var once := Tick(fired, entries, now, enabled);
    if enabled {
      TickRecordsDue(fired, entries, now);
    }
    TickFiresOnlyFresh(once.fired, entries, now, enabled);
    EmptyKeySet(Tick(once.fired, entries, now, enabled).raised, DayOf(now));
  }

  // ---------------------------------------------------------------------------
  // The reading of a time without minutes, as written

  /**
   * As written, an entry whose start is "9" is in the window at every minute
   * of every day, so it fires on the first tick of each day it is scheduled;
   * as intended, it never is.
   */
  lemma HourOnlyTimeAlwaysInWindow(nowMinutes: int)
    ensures InWindowAsWritten(TimeToMinutesAsWritten(Some("9")), nowMinutes)
    ensures DueKey(Entry("id", "Monday", "", Some("9"), None, ""), Start, TimeToMinutes(Some("9")), nowMinutes).None?
  {
    MissingMinutesReadAsNaN();
  }
}

=== FILE: projector.dfy ===
/**
 * The schedule projector, `findNextReminderEvent`: projects every entry's start
 * and end onto the first instant strictly after "now" at which they recur, and
 * picks the soonest of those across the timetable.
 */
module Projector {
  import opened Wrappers
  import opened TimeParse
  import opened Schedule

  /** The result of `findNextReminderEvent`: which entry, which of its events, and when. */
  datatype NextEvent = NextEvent(entry: Entry, kind: Kind, when: int)

  /** The event `kind` of entry `e` recurs at instant `t`: on its weekday, at its minute. */
  ghost predicate OccursAt(e: Entry, kind: Kind, t: int) {
    && DayIndex(e.day) == Some(Weekday(DayOf(t)))
    && TimeToMinutes(TimeOf(e, kind)) == Some(MinuteOfDay(t))
  }

  /**
   * The first instant after `now` on weekday `w` at minute `m` of the day: the
   * weekday `daysUntil` days ahead of today, pushed a week on when that instant
   * is not after `now` (app.js:215-222).
   */
  function NextAt(w: int, m: int, now: int): (r: int)
    requires 0 <= w < DAYS_PER_WEEK && 0 <= m < MINUTES_PER_DAY
    ensures now < r <= now + MINUTES_PER_WEEK
  {
    var today := DayOf(now);
    var daysUntil := (w - Weekday(today) + DAYS_PER_WEEK) % DAYS_PER_WEEK;
    var candidate := (today + daysUntil) * MINUTES_PER_DAY + m;
    assert today * MINUTES_PER_DAY <= now < today * MINUTES_PER_DAY + MINUTES_PER_DAY;
    assert candidate == today * MINUTES_PER_DAY + daysUntil * MINUTES_PER_DAY + m;
    if candidate <= now then candidate + MINUTES_PER_WEEK else candidate
  }

  /**
   * The candidate instant of one event (app.js:201-222), None when the entry's
   * day name or the event's time does not parse.
   */
  function Candidate(e: Entry, kind: Kind, now: int): (r: Option<int>)
    ensures r.Some? ==> now < r.value <= now + MINUTES_PER_WEEK
  {
    match DayIndex(e.day)
    case None => None
    case Some(w) =>
      match TimeToMinutes(TimeOf(e, kind))
      case None => None
      case Some(m) => Some(NextAt(w, m, now))
  }

  /** Two instants at the same minute of the same weekday are a whole number of weeks apart. */
  lemma SameSlotIsWeeksApart(t: int, u: int)
    requires t < u
    requires MinuteOfDay(t) == MinuteOfDay(u) && Weekday(DayOf(t)) == Weekday(DayOf(u))
    ensures u - t >= MINUTES_PER_WEEK
  {
    var dt, du := DayOf(t), DayOf(u);
    assert t == dt * MINUTES_PER_DAY + MinuteOfDay(t);
    assert u == du * MINUTES_PER_DAY + MinuteOfDay(u);
    assert dt < du;
    assert dt == (dt / 7) * 7 + Weekday(dt);
    assert du == (du / 7) * 7 + Weekday(du);
    assert du - dt >= 7;
  }

  lemma DaysUntilLandsOnWeekday(today: int, w: int)
    requires 0 <= w < DAYS_PER_WEEK
    ensures var daysUntil := (w - Weekday(today) + DAYS_PER_WEEK) % DAYS_PER_WEEK;
      0 <= daysUntil < DAYS_PER_WEEK && Weekday(today + daysUntil) == w
  {
    var a := Weekday(today);
    assert today == (today / 7) * 7 + a;
    if w >= a {
      assert (w - a + 7) % 7 == w - a;
      assert today + (w - a) == (today / 7) * 7 + w;
    } else {
      assert (w - a + 7) % 7 == w - a + 7;
      assert today + (w - a + 7) == (today / 7 + 1) * 7 + w;
    }
  }

  /**
   * `NextAt` lands on weekday `w` at minute `m`, and no instant after `now`
   * before it does.
   */
  lemma {:induction false} NextAtIsNextSlot(w: int, m: int, now: int)
    requires 0 <= w < DAYS_PER_WEEK && 0 <= m < MINUTES_PER_DAY
    ensures Weekday(DayOf(NextAt(w, m, now))) == w && MinuteOfDay(NextAt(w, m, now)) == m
    ensures forall t :: now < t < NextAt(w, m, now) ==> !(Weekday(DayOf(t)) == w && MinuteOfDay(t) == m)
  {
    var today := DayOf(now);
    var daysUntil := (w - Weekday(today) + DAYS_PER_WEEK) % DAYS_PER_WEEK;
    DaysUntilLandsOnWeekday(today, w);
    var first := (today + daysUntil) * MINUTES_PER_DAY + m;
    assert DayOf(first) == today + daysUntil && MinuteOfDay(first) == m;
    var c := NextAt(w, m, now);
    if first <= now {
      assert c == first + MINUTES_PER_WEEK;
      assert DayOf(c) == today + daysUntil + 7 && MinuteOfDay(c) == m;
      assert Weekday(today + daysUntil + 7) == Weekday(today + daysUntil);
    }
    NoSlotBefore(w, m, now, c);
  }

  /** No instant after `now` and before `c` falls on weekday `w` at minute `m`, when `c` does and is at most a week after `now`. */
  lemma NoSlotBefore(w: int, m: int, now: int, c: int)
    requires Weekday(DayOf(c)) == w && MinuteOfDay(c) == m && c <= now + MINUTES_PER_WEEK
    ensures forall t :: now < t < c ==> !(Weekday(DayOf(t)) == w && MinuteOfDay(t) == m)
  {
    forall t | now < t < c
      ensures !(Weekday(DayOf(t)) == w && MinuteOfDay(t) == m)
    {
      if Weekday(DayOf(t)) == w && MinuteOfDay(t) == m {
        SameSlotIsWeeksApart(t, c);
      }
    }
  }

  /**
   * The candidate is the next occurrence: the event recurs there, and at no
   * instant after `now` before it. An event without a candidate never recurs.
   */
  lemma CandidateIsNextOccurrence(e: Entry, kind: Kind, now: int)
    ensures Candidate(e, kind, now).None? ==> forall t :: !OccursAt(e, kind, t)
    ensures Candidate(e, kind, now).Some? ==>
      var c := Candidate(e, kind, now).value;
      && OccursAt(e, kind, c)
      && forall t :: now < t < c ==> !OccursAt(e, kind, t)
  {
    if Candidate(e, kind, now).Some? {
      NextAtIsNextSlot(DayIndex(e.day).value, TimeToMinutes(TimeOf(e, kind)).value, now);
    }
  }

  /** The event the loop visits at step `q`: entry `q / 2`, its start on even steps and its end on odd ones. */
  function KindAt(q: int): Kind {
    if q % 2 == 0 then Start else End
  }

  /** The candidates of all events, in the order the loop visits them: each entry's start, then its end. */
  ghost function Candidates(entries: seq<Entry>, now: int): (cs: seq<Option<int>>)
    ensures |cs| == 2 * |entries|
  {
    if entries == [] then []
    else
      var last := entries[|entries| - 1];
      Candidates(entries[..|entries| - 1], now) + [Candidate(last, Start, now), Candidate(last, End, now)]
  }

  /** The `kind` event of entry `j` is visited at step `2 * j + KindIndex(kind)`. */
  lemma {:induction false} CandidatesVisitOrder(entries: seq<Entry>, now: int, j: int, kind: Kind)
    requires 0 <= j < |entries|
    ensures 2 * j + KindIndex(kind) < 2 * |entries|
    ensures Candidates(entries, now)[2 * j + KindIndex(kind)] == Candidate(entries[j], kind, now)
  {
    var init := entries[..|entries| - 1];
    if j < |entries| - 1 {
      CandidatesVisitOrder(init, now, j, kind);
      assert init[j] == entries[j];
    }
  }

  /** None of the first `p` events visited has a candidate. */
  ghost predicate NoCandidateAmong(cs: seq<Option<int>>, p: int)
    requires 0 <= p <= |cs|
  {
    forall q :: 0 <= q < p ==> cs[q].None?
  }

  /**
   * `when` is the candidate of the event visited at step `best`, one of the
   * first `p`; it is no later than any candidate among them and strictly
   * earlier than every candidate visited before it.
   */
  ghost predicate LeadsAmong(cs: seq<Option<int>>, p: int, best: int, when: int)
    requires 0 <= p <= |cs|
  {
    && 0 <= best < p
    && cs[best] == Some(when)
    && (forall q :: 0 <= q < p && cs[q].Some? ==> when <= cs[q].value)
    && (forall q :: 0 <= q < best && cs[q].Some? ==> when < cs[q].value)
  }

  /** When no event visited has a candidate, no event of any entry has one. */
  lemma NoCandidateMeansNone(entries: seq<Entry>, now: int)
    requires NoCandidateAmong(Candidates(entries, now), 2 * |entries|)
    ensures forall j, k :: 0 <= j < |entries| ==> Candidate(entries[j], k, now).None?
  {
    forall j, k | 0 <= j < |entries|
      ensures Candidate(entries[j], k, now).None?
    {
      CandidatesVisitOrder(entries, now, j, k);
    }
  }

  /** At most one event leads: its step and its instant are determined by the candidates. */
  lemma LeaderIsUnique(cs: seq<Option<int>>, p: int, best: int, when: int, best': int, when': int)
    requires 0 <= p <= |cs|
    requires LeadsAmong(cs, p, best, when) && LeadsAmong(cs, p, best', when')
    ensures best == best' && when == when'
  {
    assert when <= when' && when' <= when;
  }

  /**
   * The leading candidate across the whole timetable lies within a week after
   * `now` and is no later than any instant after `now` at which an event recurs.
   */
  lemma LeaderIsSoonest(entries: seq<Entry>, now: int, best: int, when: int)
    requires LeadsAmong(Candidates(entries, now), 2 * |entries|, best, when)
    ensures 0 <= best / 2 < |entries| && Candidate(entries[best / 2], KindAt(best), now) == Some(when)
    ensures now < when <= now + MINUTES_PER_WEEK
    ensures forall j, k, t :: 0 <= j < |entries| && now < t && OccursAt(entries[j], k, t) ==> when <= t
  {
    CandidatesVisitOrder(entries, now, best / 2, KindAt(best));
    assert 2 * (best / 2) + KindIndex(KindAt(best)) == best;
    forall j, k, t | 0 <= j < |entries| && now < t && OccursAt(entries[j], k, t)
      ensures when <= t
    {
      CandidateIsNextOccurrence(entries[j], k, now);
      CandidatesVisitOrder(entries, now, j, k);
    }
  }

  /**
   * What the loop knows after visiting the first `p` events: `next` is None
   * exactly when none of them has a candidate, and otherwise holds the
   * candidate visited at step `best`, which leads them.
   */
  ghost predicate Scanned(entries: seq<Entry>, now: int, p: int, next: Option<NextEvent>, best: int)
    requires 0 <= p <= 2 * |entries|
  {
    var cs := Candidates(entries, now);
    && (next.None? <==> NoCandidateAmong(cs, p))
    && (next.Some? ==>
          && LeadsAmong(cs, p, best, next.value.when)
          && next.value.entry == entries[best / 2] && next.value.kind == KindAt(best))
  }

  /** Visiting an event without a candidate changes nothing. */
  lemma ScanSkip(entries: seq<Entry>, now: int, p: int, next: Option<NextEvent>, best: int)
    requires 0 <= p < 2 * |entries| && Scanned(entries, now, p, next, best)
    requires Candidates(entries, now)[p].None?
    ensures Scanned(entries, now, p + 1, next, best)
  {
  }

  /** Visiting an event with a candidate keeps the strictly earlier of it and the leader. */
  lemma ScanTake(entries: seq<Entry>, now: int, p: int, next: Option<NextEvent>, best: int, candidate: int)
    requires 0 <= p < 2 * |entries| && Scanned(entries, now, p, next, best)
    requires Candidates(entries, now)[p] == Some(candidate)
    ensures next.None? || candidate < next.value.when ==>
      Scanned(entries, now, p + 1, Some(NextEvent(entries[p / 2], KindAt(p), candidate)), p)
    ensures !(next.None? || candidate < next.value.when) ==> Scanned(entries, now, p + 1, next, best)
  {
  }

  /** The candidate visited at step `p`, for an entry whose day name is weekday `w`. */
  lemma CandidateAtStep(entries: seq<Entry>, now: int, p: int, w: nat)
    requires 0 <= p < 2 * |entries| && DayIndex(entries[p / 2].day) == Some(w)
    ensures var minutes := TimeToMinutes(TimeOf(entries[p / 2], KindAt(p)));
      && (minutes.None? ==> Candidates(entries, now)[p].None?)
      && (minutes.Some? ==> Candidates(entries, now)[p] == Some(NextAt(w, minutes.value, now)))
  {
    CandidatesVisitOrder(entries, now, p / 2, KindAt(p));
    assert 2 * (p / 2) + KindIndex(KindAt(p)) == p;
  }

  /** An entry whose day name does not parse contributes no candidate. */
  lemma ScanSkipEntry(entries: seq<Entry>, now: int, i: int, next: Option<NextEvent>, best: int)
    requires 0 <= i < |entries| && DayIndex(entries[i].day).None?
    requires Scanned(entries, now, 2 * i, next, best)
    ensures Scanned(entries, now, 2 * i + 2, next, best)
  {
    assert Candidates(entries, now)[2 * i].None? by {
      CandidatesVisitOrder(entries, now, i, Start);
    }
    ScanSkip(entries, now, 2 * i, next, best);
    assert Candidates(entries, now)[2 * i + 1].None? by {
      CandidatesVisitOrder(entries, now, i, End);
    }
    ScanSkip(entries, now, 2 * i + 1, next, best);
  }

  /**
   * The callback run for each event of an entry whose day name parses
   * (app.js:210-230), the event visited at step `p`: when the event's time
   * parses, its candidate replaces `next` if there is none yet or the
   * candidate is strictly earlier. What the loop knows carries over to one
   * more step.
   */
  method VisitEvent(ghost entries: seq<Entry>, ghost p: int, entry: Entry, dayIndex: nat, kind: Kind, now: int,
                    next: Option<NextEvent>, ghost best: int)
    returns (next': Option<NextEvent>, ghost best': int)
    requires 0 <= p < 2 * |entries| && entry == entries[p / 2] && kind == KindAt(p)
    requires DayIndex(entry.day) == Some(dayIndex)
    requires Scanned(entries, now, p, next, best)
    ensures Scanned(entries, now, p + 1, next', best')
  {
    next', best' := next, best;
    var minutes := TimeToMinutes(TimeOf(entry, kind));
    if minutes.Some? {
      var candidate := NextAt(dayIndex, minutes.value, now);
      CandidateAtStep(entries, now, p, dayIndex);
      ScanTake(entries, now, p, next, best, candidate);
      if next.None? || candidate < next.value.when {
        next' := Some(NextEvent(entry, kind, candidate));
        best' := p;
      }
    } else {
      CandidateAtStep(entries, now, p, dayIndex);
      ScanSkip(entries, now, p, next, best);
    }
  }

  /**
   * `findNextReminderEvent`. None exactly when no event of any entry has a
   * candidate (in particular for an empty timetable); otherwise the soonest
   * candidate, the first one visited among equals, which is the soonest instant
   * after `now` at which any event recurs, and lies within a week.
   */
  method FindNextReminderEvent(entries: seq<Entry>, now: int) returns (next: Option<NextEvent>)
    ensures next.None? <==> forall j, k :: 0 <= j < |entries| ==> Candidate(entries[j], k, now).None?
    ensures next.Some? ==> exists best ::
      && LeadsAmong(Candidates(entries, now), 2 * |entries|, best, next.value.when)
      && next.value.entry == entries[best / 2] && next.value.kind == KindAt(best)
    ensures next.Some? ==> now < next.value.when <= now + MINUTES_PER_WEEK
    ensures next.Some? ==>
      (forall j, k, t :: 0 <= j < |entries| && now < t && OccursAt(entries[j], k, t) ==> next.value.when <= t)
  {
    if |entries| == 0 {
      return None;
    }
    next := None;
    ghost var best := 0;
    var i := 0;
    while i < |entries|
      invariant 0 <= i <= |entries|
      invariant Scanned(entries, now, 2 * i, next, best)
    {
      var entry := entries[i];
      var dayIndex := DayIndex(entry.day);
      if dayIndex.Some? {
        var events := [Start, End];
        var e := 0;
        while e < |events|
          invariant 0 <= e <= |events|
          invariant Scanned(entries, now, 2 * i + e, next, best)
        {
          var kind := events[e];
          assert (2 * i + e) / 2 == i && KindAt(2 * i + e) == kind;
          next, best := VisitEvent(entries, 2 * i + e, entry, dayIndex.value, kind, now, next, best);
          e := e + 1;
        }
      } else {
        ScanSkipEntry(entries, now, i, next, best);
      }
      i := i + 1;
    }
    if next.None? {
      NoCandidateMeansNone(entries, now);
    } else {
      LeaderIsSoonest(entries, now, best, next.value.when);
    }
  }
}

=== FILE: projector_as_written.dfy ===
/**
 * `findNextReminderEvent` as written, where it departs from the corrected
 * projector. `DAY_NAME_TO_INDEX` is a plain object built by
 * `Object.fromEntries`, so looking a day name up in it also finds the names
 * every object inherits from `Object.prototype`; and `timeToMinutes` can return
 * NaN. Either way the candidate becomes an Invalid Date, and a `Date`
 * comparison with an Invalid Date is always false.
 */
module ProjectorAsWritten {
  import opened Wrappers
  import opened JsText
  import opened TimeParse
  import opened Schedule
  import opened Projector

  /** The properties of `Object.prototype`, which every plain object inherits. */
  const INHERITED_NAMES: set<string> := {
    "constructor", "hasOwnProperty", "isPrototypeOf", "propertyIsEnumerable",
    "toLocaleString", "toString", "valueOf", "__proto__",
    "__defineGetter__", "__defineSetter__", "__lookupGetter__", "__lookupSetter__"
  }

  /**
   * What `DAY_NAME_TO_INDEX[name]` yields: one of its own keys' weekdays, an
   * inherited property (a function or `Object.prototype`, never `undefined`),
   * or `undefined`.
   */
  datatype DayLookup = OwnKey(weekday: nat) | Inherited | Undefined

  /**
   * `DAY_NAME_TO_INDEX[name]`: the seven day names find their weekday, the
   * inherited names find something other than `undefined`, and nothing else
   * is found.
   */
  function LookupDay(name: string): (r: DayLookup)
    ensures r.OwnKey? <==> name in DAY_NAMES
    ensures r.OwnKey? ==> r.weekday < DAYS_PER_WEEK && DAY_NAMES[r.weekday] == name
    ensures r.Inherited? <==> name in INHERITED_NAMES
    ensures r.Undefined? <==> name !in DAY_NAMES && name !in INHERITED_NAMES
  {
    DayIndexInvertsDayNames(name);
    match DayIndex(name)
    case Some(w) => OwnKey(w)
    case None => if name in INHERITED_NAMES then Inherited else Undefined
  }

  /** A `Date`: a valid instant, or an Invalid Date (time value NaN). */
  datatype DateValue = At(t: int) | InvalidDate

  /** `a < b` on `Date`s: false whenever either is an Invalid Date. */
  predicate Earlier(a: DateValue, b: DateValue) {
    a.At? && b.At? && a.t < b.t
  }

  /**
   * The candidate of one event as written (app.js:201-222). An unknown day
   * name or a `null` time gives none. Otherwise `daysUntil` or the hours are
   * NaN when the day name is inherited or the time is NaN, and the candidate is
   * an Invalid Date; `candidate <= now` is then false, so no week is added.
   */
  function CandidateAsWritten(e: Entry, kind: Kind, now: int): (r: Option<DateValue>)
    ensures r.Some? && r.value.At? ==> now < r.value.t <= now + MINUTES_PER_WEEK
  {
    match LookupDay(e.day)
    case Undefined => None
    case Inherited =>
      if TimeToMinutesAsWritten(TimeOf(e, kind)).Null? then None else Some(InvalidDate)
    case OwnKey(w) =>
      match TimeToMinutesAsWritten(TimeOf(e, kind))
      case Null => None
      case NotANumber => Some(InvalidDate)
      case Minutes(m) => Some(At(NextAt(w, m, now)))
  }

  /**
   * The candidate as written and the corrected one agree on every valid
   * instant and on every event without one; the written one differs only by
   * producing an Invalid Date, where the corrected one has no candidate.
   */
  lemma CandidateCorrectionOnlyRemovesInvalid(e: Entry, kind: Kind, now: int)
    ensures CandidateAsWritten(e, kind, now).None? ==> Candidate(e, kind, now).None?
    ensures forall t :: CandidateAsWritten(e, kind, now) == Some(At(t)) <==> Candidate(e, kind, now) == Some(t)
    ensures CandidateAsWritten(e, kind, now) == Some(InvalidDate) ==> Candidate(e, kind, now).None?
  {
    CorrectionOnlyRemovesNaN(TimeOf(e, kind));
  }

  /** The accumulator `nextEvent` as written: which entry, which event, and its `Date`. */
  datatype Leader = Leader(entry: Entry, kind: Kind, when: DateValue)

  /** `if (!nextEvent || candidate < nextEvent.when) nextEvent = …` for one event. */
  function Offer(next: Option<Leader>, e: Entry, kind: Kind, candidate: Option<DateValue>): (r: Option<Leader>)
    ensures r.None? <==> next.None? && candidate.None?
    ensures r != next ==> candidate.Some? && r == Some(Leader(e, kind, candidate.value))
    ensures next.None? && candidate.Some? ==> r == Some(Leader(e, kind, candidate.value))
    ensures next.Some? && candidate.Some? ==> (r != next <==> Earlier(candidate.value, next.value.when))
  {
    match candidate
    case None => next
    case Some(d) => if next.None? || Earlier(d, next.value.when) then Some(Leader(e, kind, d)) else next
  }

  /** An entry's callback as written: its start is offered, then its end. */
  function OfferEntry(next: Option<Leader>, e: Entry, now: int): Option<Leader> {
    Offer(Offer(next, e, Start, CandidateAsWritten(e, Start, now)), e, End, CandidateAsWritten(e, End, now))
  }

  /** The accumulator after the callbacks of `entries`, in order, starting from `null`. */
  function ScanAsWritten(entries: seq<Entry>, now: int): Option<Leader> {
    if entries == [] then None
    else OfferEntry(ScanAsWritten(entries[..|entries| - 1], now), entries[|entries| - 1], now)
  }

  /**
   * `findNextReminderEvent` as written: the same loop as the corrected one,
   * with the lookup and the parse as written.
   */
  method FindNextReminderEventAsWritten(entries: seq<Entry>, now: int) returns (next: Option<Leader>)
    ensures next == ScanAsWritten(entries, now)
  {
    if |entries| == 0 {
      return None;
    }
    next := None;
    var i := 0;
    while i < |entries|
      invariant 0 <= i <= |entries|
      invariant next == ScanAsWritten(entries[..i], now)
    {
      var entry := entries[i];
      ghost var before := next;
      var events := [Start, End];
      var e := 0;
      while e < |events|
        invariant 0 <= e <= |events|
        invariant e == 0 ==> next == before
        invariant e == 1 ==> next == Offer(before, entry, Start, CandidateAsWritten(entry, Start, now))
        invariant e == 2 ==> next == OfferEntry(before, entry, now)
      {
        var kind := events[e];
        var candidate := CandidateAsWritten(entry, kind, now);
        next := Offer(next, entry, kind, candidate);
        e := e + 1;
      }
      assert entries[..i + 1][..i] == entries[..i];
      i := i + 1;
    }
    assert entries[..|entries|] == entries;
  }

  /**
   * Once an Invalid Date leads, no later candidate replaces it: every
   * comparison with it is false.
   */
  lemma {:induction false} InvalidLeaderSticks(xs: seq<Entry>, ys: seq<Entry>, now: int)
    requires ScanAsWritten(xs, now).Some? && ScanAsWritten(xs, now).value.when == InvalidDate
    ensures ScanAsWritten(xs + ys, now) == ScanAsWritten(xs, now)
    decreases |ys|
  {
    if ys == [] {
      assert xs + ys == xs;
    } else {
      var init := ys[..|ys| - 1];
      assert (xs + ys)[..|xs + ys| - 1] == xs + init;
      assert (xs + ys)[|xs + ys| - 1] == ys[|ys| - 1];
      InvalidLeaderSticks(xs, init, now);
    }
  }

  /** No event of `entries` yields an Invalid Date as written. */
  predicate NoInvalidCandidate(entries: seq<Entry>, now: int) {
    forall j, k :: 0 <= j < |entries| ==> CandidateAsWritten(entries[j], k, now) != Some(InvalidDate)
  }

  /** An accumulator that holds no Invalid Date. */
  predicate ValidLeader(next: Option<Leader>) {
    next.None? || next.value.when.At?
  }

  /** The accumulator as the corrected projector's result; an Invalid Date has none. */
  function Lifted(next: Option<Leader>): Option<NextEvent> {
    match next
    case None => None
    case Some(l) => if l.when.At? then Some(NextEvent(l.entry, l.kind, l.when.t)) else None
  }

  /**
   * Offering the event visited at step `p` as written does what the corrected
   * projector's step does, as long as no event yields an Invalid Date.
   */
  lemma OfferStep(entries: seq<Entry>, now: int, p: int, e: Entry, kind: Kind, next: Option<Leader>, best: int)
    returns (best': int)
    requires 0 <= p < 2 * |entries| && e == entries[p / 2] && kind == KindAt(p) && NoInvalidCandidate(entries, now)
    requires ValidLeader(next) && Scanned(entries, now, p, Lifted(next), best)
    ensures ValidLeader(Offer(next, e, kind, CandidateAsWritten(e, kind, now)))
    ensures Scanned(entries, now, p + 1, Lifted(Offer(next, e, kind, CandidateAsWritten(e, kind, now))), best')
  {
    CandidatesVisitOrder(entries, now, p / 2, kind);
    assert 2 * (p / 2) + KindIndex(kind) == p;
    CandidateCorrectionOnlyRemovesInvalid(e, kind, now);
    var c := CandidateAsWritten(e, kind, now);
    assert c != Some(InvalidDate);
    best' := best;
    if c.None? {
      ScanSkip(entries, now, p, Lifted(next), best);
    } else {
      ScanTake(entries, now, p, Lifted(next), best, c.value.t);
      if next.None? || Earlier(c.value, next.value.when) {
        best' := p;
      }
    }
  }

  /** The callback of entry `i` as written does what the corrected loop does for it. */
  lemma EntryStep(entries: seq<Entry>, now: int, i: int, next: Option<Leader>, best: int) returns (best': int)
    requires 0 <= i < |entries| && NoInvalidCandidate(entries, now)
    requires ValidLeader(next) && Scanned(entries, now, 2 * i, Lifted(next), best)
    ensures ValidLeader(OfferEntry(next, entries[i], now))
    ensures Scanned(entries, now, 2 * i + 2, Lifted(OfferEntry(next, entries[i], now)), best')
  {
    var e := entries[i];
    assert (2 * i) / 2 == i && KindAt(2 * i) == Start;
    var b := OfferStep(entries, now, 2 * i, e, Start, next, best);
    assert (2 * i + 1) / 2 == i && KindAt(2 * i + 1) == End;
    best' := OfferStep(entries, now, 2 * i + 1, e, End, Offer(next, e, Start, CandidateAsWritten(e, Start, now)), b);
  }

  /** The as-written scan of a prefix one entry longer runs one more callback. */
  lemma ScanOneMore(entries: seq<Entry>, now: int, i: int)
    requires 0 < i <= |entries|
    ensures ScanAsWritten(entries[..i], now) == OfferEntry(ScanAsWritten(entries[..i - 1], now), entries[i - 1], now)
  {
    assert entries[..i][..i - 1] == entries[..i - 1];
  }

  /** After the callbacks of the first `i` entries, the as-written accumulator is what the corrected loop knows. */
  lemma {:induction false} ScanPrefix(entries: seq<Entry>, now: int, i: int) returns (best: int)
    requires 0 <= i <= |entries| && NoInvalidCandidate(entries, now)
    ensures ValidLeader(ScanAsWritten(entries[..i], now))
    ensures Scanned(entries, now, 2 * i, Lifted(ScanAsWritten(entries[..i], now)), best)
  {
    if i == 0 {
      best := 0;
      assert entries[..0] == [];
    } else {
      var b := ScanPrefix(entries, now, i - 1);
      ScanOneMore(entries, now, i);
      best := EntryStep(entries, now, i - 1, ScanAsWritten(entries[..i - 1], now), b);
    }
  }

  /**
   * When no event yields an Invalid Date, the projector as written returns
   * what the corrected one does: nothing exactly when no event has a
   * candidate, and otherwise the one leading event that the corrected
   * projector's contract admits, with the same instant.
   */
  lemma ScanAsWrittenAgrees(entries: seq<Entry>, now: int)
    requires NoInvalidCandidate(entries, now)
    ensures ScanAsWritten(entries, now).None? <==> forall j, k :: 0 <= j < |entries| ==> Candidate(entries[j], k, now).None?
    ensures forall best, when :: LeadsAmong(Candidates(entries, now), 2 * |entries|, best, when) ==>
      ScanAsWritten(entries, now) == Some(Leader(entries[best / 2], KindAt(best), At(when)))
  {
    var b := ScanPrefix(entries, now, |entries|);
    assert entries[..|entries|] == entries;
    ScannedLeader(entries, now, ScanAsWritten(entries, now), b);
  }

  /** An accumulator that the whole corrected loop would know is its one possible result. */
  lemma ScannedLeader(entries: seq<Entry>, now: int, next: Option<Leader>, b: int)
    requires ValidLeader(next) && Scanned(entries, now, 2 * |entries|, Lifted(next), b)
    ensures next.None? <==> forall j, k :: 0 <= j < |entries| ==> Candidate(entries[j], k, now).None?
    ensures forall best, when :: LeadsAmong(Candidates(entries, now), 2 * |entries|, best, when) ==>
      next == Some(Leader(entries[best / 2], KindAt(best), At(when)))
  {
    if next.None? {
      NoCandidateMeansNone(entries, now);
    } else {
      CandidatesVisitOrder(entries, now, b / 2, KindAt(b));
      assert 2 * (b / 2) + KindIndex(KindAt(b)) == b;
      assert Candidate(entries[b / 2], KindAt(b), now).Some?;
    }
    forall best, when | LeadsAmong(Candidates(entries, now), 2 * |entries|, best, when)
      ensures next == Some(Leader(entries[best / 2], KindAt(best), At(when)))
    {
      LeaderIsUnique(Candidates(entries, now), 2 * |entries|, best, when, b, next.value.when.t);
    }
  }

  /** The as-written scan of one entry is that entry's callback from `null`. */
  lemma ScanOfOne(a: Entry, now: int)
    ensures ScanAsWritten([a], now) == OfferEntry(None, a, now)
  {
    assert [a][..0] == [];
  }

  /**
   * An entry whose day name is an inherited property and whose start time is
   * not `null`, followed by any entries: as written its start yields an
   * Invalid Date, which is kept and returned whatever follows. Corrected, that
   * entry contributes no candidate, so the entries after it alone decide the
   * result.
   */
  lemma InheritedDayNameLeads(a: Entry, rest: seq<Entry>, now: int)
    requires a.day in INHERITED_NAMES
    requires !TimeToMinutesAsWritten(a.start).Null?
    ensures ScanAsWritten([a] + rest, now) == Some(Leader(a, Start, InvalidDate))
    ensures Candidates([a] + rest, now)[0] == None && Candidates([a] + rest, now)[1] == None
  {
    InheritedDayCandidates(a, now);
    InvalidStartLeads(a, rest, now);
    CandidatesVisitOrder([a] + rest, now, 0, Start);
    CandidatesVisitOrder([a] + rest, now, 0, End);
  }

  /** On an inherited day name, a start that is not `null` is an Invalid Date as written, and no event has a candidate once corrected. */
  lemma InheritedDayCandidates(a: Entry, now: int)
    requires a.day in INHERITED_NAMES
    requires !TimeToMinutesAsWritten(a.start).Null?
    ensures CandidateAsWritten(a, Start, now) == Some(InvalidDate)
    ensures Candidate(a, Start, now).None? && Candidate(a, End, now).None?
  {
    assert LookupDay(a.day) == Inherited;
    assert DayIndex(a.day).None?;
  }

  /** A first entry whose start is an Invalid Date as written leads the scan whatever follows it. */
  lemma InvalidStartLeads(a: Entry, rest: seq<Entry>, now: int)
    requires CandidateAsWritten(a, Start, now) == Some(InvalidDate)
    ensures ScanAsWritten([a] + rest, now) == Some(Leader(a, Start, InvalidDate))
  {
    assert OfferEntry(None, a, now) == Some(Leader(a, Start, InvalidDate));
    ScanOfOne(a, now);
    InvalidLeaderSticks([a], rest, now);
  }

  /**
   * An entry on a weekday whose start time is an hour with no minutes field,
   * followed by any entries: as written the NaN start yields an Invalid Date,
   * which is kept and returned. Corrected, that start has no candidate.
   */
  lemma HourOnlyTimeLeads(a: Entry, rest: seq<Entry>, now: int)
    requires a.day in DAY_NAMES
    requires TimeToMinutesAsWritten(a.start).NotANumber?
    ensures ScanAsWritten([a] + rest, now) == Some(Leader(a, Start, InvalidDate))
    ensures Candidates([a] + rest, now)[0] == None
  {
    assert LookupDay(a.day).OwnKey?;
    CandidateCorrectionOnlyRemovesInvalid(a, Start, now);
    InvalidStartLeads(a, rest, now);
    CandidatesVisitOrder([a] + rest, now, 0, Start);
  }

  /** "09:00" reads as minute 540 of the day. */
  lemma NineOClock()
    ensures TimeToMinutesAsWritten(Some("09:00")) == Minutes(540)
    ensures TimeToMinutes(Some("09:00")) == Some(540)
  {
    assert FormatTime(540) == "09:00" by {
      assert Digits(9, 2) == "09" && Digits(0, 2) == "00";
    }
    TimeRoundTrip(540);
    CorrectionOnlyRemovesNaN(Some("09:00"));
  }

  /** "10:00" reads as minute 600 of the day. */
  lemma TenOClock()
    ensures TimeToMinutes(Some("10:00")) == Some(600)
  {
    assert FormatTime(600) == "10:00" by {
      assert Digits(10, 2) == "10" && Digits(0, 2) == "00";
    }
    TimeRoundTrip(600);
    CorrectionOnlyRemovesNaN(Some("10:00"));
  }

  /** An event of a Monday entry at minute `m`, at midnight starting Sunday, is due at minute `m` of Monday. */
  lemma MondayCandidate(e: Entry, kind: Kind, m: int)
    requires DayIndex(e.day) == Some(1) && TimeToMinutes(TimeOf(e, kind)) == Some(m)
    ensures Candidate(e, kind, 0) == Some(MINUTES_PER_DAY + m)
  {
    assert NextAt(1, m, 0) == MINUTES_PER_DAY + m by {
      assert DayOf(0) == 0 && Weekday(0) == 0;
    }
  }

  /**
   * A first entry whose start is an Invalid Date as written and which has no
   * corrected candidates, listed before an entry whose start is due at `x`
   * and whose end is due later: as written the Invalid Date is returned;
   * corrected, the second entry's start is the one leading event.
   */
  lemma InvalidBeforeValid(a: Entry, e: Entry, now: int, x: int, y: int)
    requires CandidateAsWritten(a, Start, now) == Some(InvalidDate)
    requires Candidate(a, Start, now).None? && Candidate(a, End, now).None?
    requires Candidate(e, Start, now) == Some(x) && Candidate(e, End, now) == Some(y) && x < y
    ensures ScanAsWritten([a, e], now) == Some(Leader(a, Start, InvalidDate))
    ensures Candidates([a, e], now) == [None, None, Some(x), Some(y)]
    ensures forall best, when :: LeadsAmong(Candidates([a, e], now), 4, best, when) <==> best == 2 && when == x
  {
    InvalidStartLeads(a, [e], now);
    assert [a] + [e] == [a, e];
    CandidatesOfTwo(a, e, now);
    OnlyLeader(Candidates([a, e], now), x, y);
  }

  /**
   * An entry on day "constructor" starting "09:00", listed before a Monday
   * session from "09:00" to "10:00", at midnight starting Sunday. As written
   * the first entry's start is an Invalid Date and is returned. Corrected, the
   * first entry has no candidates, and the Monday start, at 09:00 on Monday,
   * is the one leading event: the only result the corrected projector's
   * contract admits.
   */
  lemma ConstructorBeforeMondaySession(a: Entry, e: Entry)
    requires a.day == "constructor" && a.start == Some("09:00")
    requires e.day == "Monday" && e.start == Some("09:00") && e.end == Some("10:00")
    ensures ScanAsWritten([a, e], 0) == Some(Leader(a, Start, InvalidDate))
    ensures Candidates([a, e], 0) == [None, None, Some(MINUTES_PER_DAY + 540), Some(MINUTES_PER_DAY + 600)]
    ensures forall best, when :: LeadsAmong(Candidates([a, e], 0), 4, best, when) <==>
      best == 2 && when == MINUTES_PER_DAY + 540
  {
    NineOClock();
    TenOClock();
    DayNames();
    InheritedDayCandidates(a, 0);
    MondayCandidate(e, Start, 540);
    MondayCandidate(e, End, 600);
    InvalidBeforeValid(a, e, 0, MINUTES_PER_DAY + 540, MINUTES_PER_DAY + 600);
  }

  /** "constructor" is an inherited name, and "Monday" is weekday 1. */
  lemma DayNames()
    ensures "constructor" in INHERITED_NAMES
    ensures DayIndex("Monday") == Some(1)
  {
    assert DAY_NAMES[1] == "Monday";
  }

  /** The events of two entries, in the order they are visited. */
  lemma CandidatesOfTwo(a: Entry, e: Entry, now: int)
    ensures Candidates([a, e], now) ==
      [Candidate(a, Start, now), Candidate(a, End, now), Candidate(e, Start, now), Candidate(e, End, now)]
  {
    assert [a, e][..1] == [a];
    assert [a][..0] == [];
  }

  /** Among two events without candidates followed by an earlier and a later one, the earlier one alone leads. */
  lemma OnlyLeader(cs: seq<Option<int>>, x: int, y: int)
    requires cs == [None, None, Some(x), Some(y)] && x < y
    ensures forall best, when :: LeadsAmong(cs, 4, best, when) <==> best == 2 && when == x
  {
    forall best, when | LeadsAmong(cs, 4, best, when)
      ensures best == 2 && when == x
    {
      assert cs[2] == Some(x);
    }
  }
}

=== FILE: schedule.dfy ===
/**
 * The timetable's entries and the clock they are read against.
 *
 * Time is an integer count of minutes: instant `t` lies on day `t / 1440` at
 * minute `t % 1440` of that day, and day 0 is a Sunday, so the weekday of day
 * `d` is `d % 7` with Sunday = 0 as in `Date.prototype.getDay`. The seconds of
 * the host clock are dropped: every instant the engine compares with "now"
 * falls on a whole minute, so comparing it with the minute "now" lies in gives
 * the same answer.
 */
module Schedule {
  import opened Wrappers
  import opened TimeParse

  const DAYS_PER_WEEK := 7
  const MINUTES_PER_WEEK := DAYS_PER_WEEK * MINUTES_PER_DAY

  /** `DAY_NAMES`, indexed by weekday. */
  const DAY_NAMES: seq<string> :=
    ["Sunday", "Monday", "Tuesday", "Wednesday", "Thursday", "Friday", "Saturday"]

  /** The two events of an entry, in the order the engine visits them. */
  datatype Kind = Start | End

  /**
   * A weekly study session. `start` and `end` are None when the stored value is
   * not a string at all; the entry's fields are otherwise free text, as they may
   * come back from storage in any shape.
   */
  datatype Entry = Entry(
    id: string,
    day: string,
    subject: string,
    start: Option<string>,
    end: Option<string>,
    notes: string)

  function TimeOf(e: Entry, kind: Kind): Option<string> {
    match kind
    case Start => e.start
    case End => e.end
  }

  function KindIndex(kind: Kind): nat {
    match kind
    case Start => 0
    case End => 1
  }

  function DayOf(t: int): int {
    t / MINUTES_PER_DAY
  }

  function MinuteOfDay(t: int): (m: int)
    ensures 0 <= m < MINUTES_PER_DAY
  {
    t % MINUTES_PER_DAY
  }

  /** `getDay()` of a day: 0 for Sunday through 6 for Saturday. */
  function Weekday(day: int): (w: int)
    ensures 0 <= w < DAYS_PER_WEEK
  {
    day % DAYS_PER_WEEK
  }

  /**
   * `DAY_NAME_TO_INDEX[name]` restricted to the object's own keys: the weekday
   * a day name stands for, None (`undefined`) for any other text. The lookup
   * as written also finds inherited properties; module `ProjectorAsWritten`
   * models that.
   */
  function DayIndex(name: string): (r: Option<nat>)
    ensures r.Some? ==> r.value < DAYS_PER_WEEK && DAY_NAMES[r.value] == name
  {
    if name == "Sunday" then Some(0)
    else if name == "Monday" then Some(1)
    else if name == "Tuesday" then Some(2)
    else if name == "Wednesday" then Some(3)
    else if name == "Thursday" then Some(4)
    else if name == "Friday" then Some(5)
    else if name == "Saturday" then Some(6)
    else None
  }

  /**
   * `DAY_NAME_TO_INDEX` is the inverse of `DAY_NAMES`: each weekday's name maps
   * back to that weekday, and only the seven names map to anything.
   */
  lemma DayIndexInvertsDayNames(name: string)
    ensures forall w :: 0 <= w < DAYS_PER_WEEK ==> DayIndex(DAY_NAMES[w]) == Some(w)
    ensures DayIndex(name).Some? ==> DAY_NAMES[DayIndex(name).value] == name
    ensures DayIndex(name).None? <==> name !in DAY_NAMES
  {
  }
}

=== FILE: text.dfy ===
/**
 * The pieces of JavaScript string and number semantics that the reminder engine
 * relies on: white space and `trim`, decimal digit strings, `String(n)`,
 * `padStart`, the `Number(text)` conversion and the relational comparison of
 * strings. Strings are sequences of `char`; every character is taken to be one
 * UTF-16 code unit.
 */
module JsText {

  /** The WhiteSpace and LineTerminator code points of ECMA-262 (sections 12.2 and
      12.3): the set that `trim`, the regular-expression class `\s` and `Number()`
      treat as white space. */
  predicate IsWhitespace(c: char) {
    || c == '\t' || c == '\n' || c == '\U{B}' || c == '\U{C}' || c == '\r' || c == ' '
    || c == '\U{A0}' || c == '\U{1680}' || ('\U{2000}' <= c <= '\U{200A}')
    || c == '\U{2028}' || c == '\U{2029}' || c == '\U{202F}' || c == '\U{205F}'
    || c == '\U{3000}' || c == '\U{FEFF}'
  }

  /** `s` has no white space at either end. */
  predicate IsTrimmed(s: string) {
    s == [] || (!IsWhitespace(s[0]) && !IsWhitespace(s[|s| - 1]))
  }

  /** `s` is white space throughout (or empty). */
  predicate AllWhitespace(s: string) {
    forall i :: 0 <= i < |s| ==> IsWhitespace(s[i])
  }

  /** Drops the white space at the front of `s`. */
  function TrimStart(s: string): (r: string)
    ensures |r| <= |s|
    ensures r == [] || !IsWhitespace(r[0])
  {
    if s != [] && IsWhitespace(s[0]) then TrimStart(s[1..]) else s
  }

  /** `TrimStart` keeps an end of `s` and drops only white space before it. */
  lemma {:induction false} TrimStartDropsWhitespace(s: string)
    ensures TrimStart(s) == s[|s| - |TrimStart(s)|..]
    ensures AllWhitespace(s[..|s| - |TrimStart(s)|])
  {
    if s != [] && IsWhitespace(s[0]) {
      TrimStartDropsWhitespace(s[1..]);
      assert s[..|s| - |TrimStart(s)|] == [s[0]] + s[1..][..|s| - 1 - |TrimStart(s)|];
    }
  }

  /** Drops the white space at the back of `s`. */
  function TrimEnd(s: string): (r: string)
    ensures |r| <= |s|
    ensures r == [] || !IsWhitespace(r[|r| - 1])
    ensures r == [] || r[0] == s[0]
  {
    if s != [] && IsWhitespace(s[|s| - 1]) then TrimEnd(s[..|s| - 1]) else s
  }

  /** `TrimEnd` keeps a start of `s` and drops only white space after it. */
  lemma {:induction false} TrimEndDropsWhitespace(s: string)
    ensures TrimEnd(s) == s[..|TrimEnd(s)|]
    ensures AllWhitespace(s[|TrimEnd(s)|..])
  {
    if s != [] && IsWhitespace(s[|s| - 1]) {
      TrimEndDropsWhitespace(s[..|s| - 1]);
      assert s[|TrimEnd(s)|..] == s[..|s| - 1][|TrimEnd(s)|..] + [s[|s| - 1]];
    }
  }

  /** `r` is the slice of `s` that starts at `k`, with only white space before and after it. */
  predicate TrimmedAt(r: string, s: string, k: int) {
    && 0 <= k <= k + |r| <= |s|
    && r == s[k..k + |r|]
    && AllWhitespace(s[..k])
    && AllWhitespace(s[k + |r|..])
  }

  /** `r` is what trimming `s` must give: a slice of `s` with only white space around it and none at its own ends. */
  predicate IsTrimOf(r: string, s: string) {
    IsTrimmed(r) && exists k :: 0 <= k <= |s| && TrimmedAt(r, s, k)
  }

  /** `String.prototype.trim`. */
  function Trim(s: string): (r: string)
    ensures IsTrimmed(r)
  {
    TrimEnd(TrimStart(s))
  }

  /** `Trim` drops the white space at both ends of `s` and nothing else. */
  lemma TrimIsTrimOf(s: string)
    ensures IsTrimOf(Trim(s), s)
  {
    var t := TrimStart(s);
    var r := TrimEnd(t);
    var k := |s| - |t|;
    TrimStartDropsWhitespace(s);
    TrimEndDropsWhitespace(t);
    assert r == s[k..k + |r|];
    assert s[k + |r|..] == t[|r|..];
    assert TrimmedAt(r, s, k);
  }

  /** There is only one way to trim a text: `IsTrimOf` determines `Trim`. */
  lemma TrimIsUnique(r1: string, r2: string, s: string)
    requires IsTrimOf(r1, s) && IsTrimOf(r2, s)
    ensures r1 == r2
  {
    var k1 :| 0 <= k1 <= |s| && TrimmedAt(r1, s, k1);
    var k2 :| 0 <= k2 <= |s| && TrimmedAt(r2, s, k2);
    if r1 != [] {
      TrimmedEnds(r1, s, k1);
    }
    if r2 != [] {
      TrimmedEnds(r2, s, k2);
    }
    if r1 != [] && r2 != [] {
      assert k1 == k2;
      assert k1 + |r1| == k2 + |r2|;
    }
    if r1 == [] {
      TrimmedToNothing(s, k1);
    }
    if r2 == [] {
      TrimmedToNothing(s, k2);
    }
  }

  /** A trimmed slice that is not empty starts at the first non-white character of `s` and ends at the last. */
  lemma TrimmedEnds(r: string, s: string, k: int)
    requires TrimmedAt(r, s, k) && IsTrimmed(r) && r != []
    ensures !IsWhitespace(s[k]) && !IsWhitespace(s[k + |r| - 1])
    ensures forall i :: 0 <= i < k ==> IsWhitespace(s[i])
    ensures forall i :: k + |r| <= i < |s| ==> IsWhitespace(s[i])
  {
    assert s[k] == r[0] && s[k + |r| - 1] == r[|r| - 1];
    forall i | 0 <= i < k
      ensures IsWhitespace(s[i])
    {
      assert s[..k][i] == s[i];
    }
    forall i | k + |r| <= i < |s|
      ensures IsWhitespace(s[i])
    {
      assert s[k + |r|..][i - k - |r|] == s[i];
    }
  }

  /** A text that trims to nothing is white space throughout. */
  lemma TrimmedToNothing(s: string, k: int)
    requires TrimmedAt([], s, k)
    ensures AllWhitespace(s)
  {
    forall i | 0 <= i < |s|
      ensures IsWhitespace(s[i])
    {
      if i < k {
        assert s[..k][i] == s[i];
      } else {
        assert s[k..][i - k] == s[i];
      }
    }
  }

  lemma TrimOfTrimmed(s: string)
    requires IsTrimmed(s)
    ensures Trim(s) == s
  {
  }

  predicate IsDigit(c: char) {
    '0' <= c <= '9'
  }

  predicate AllDigits(s: string) {
    forall i :: 0 <= i < |s| ==> IsDigit(s[i])
  }

  function DigitValue(c: char): (d: nat)
    requires IsDigit(c)
    ensures d < 10
  {
    c as int - '0' as int
  }

  function DigitChar(d: nat): (c: char)
    requires d < 10
    ensures IsDigit(c) && DigitValue(c) == d
  {
    ('0' as int + d) as char
  }

  /** The number a string of decimal digits denotes (the empty string denotes 0). */
  function DigitsValue(s: string): nat
    requires AllDigits(s)
  {
    if s == [] then 0 else 10 * DigitsValue(s[..|s| - 1]) + DigitValue(s[|s| - 1])
  }

  function Pow10(w: nat): (p: nat)
    ensures p >= 1
  {
    if w == 0 then 1 else 10 * Pow10(w - 1)
  }

  /** The last `w` decimal digits of `x`, with leading zeros. */
  function Digits(x: nat, w: nat): (r: string)
    ensures |r| == w && AllDigits(r)
  {
    if w == 0 then [] else Digits(x / 10, w - 1) + [DigitChar(x % 10)]
  }

  /** `String(n)` for a non-negative integer: its decimal digits, no leading zero. */
  function NatToDecimal(n: nat): (r: string)
    ensures |r| >= 1 && AllDigits(r)
  {
    if n < 10 then [DigitChar(n)] else NatToDecimal(n / 10) + [DigitChar(n % 10)]
  }

  /** `s.padStart(width, fill)`. */
  function PadStart(s: string, width: nat, fill: char): (r: string)
    ensures |r| == if |s| >= width then |s| else width
    ensures r[|r| - |s|..] == s
    ensures forall i :: 0 <= i < |r| - |s| ==> r[i] == fill
  {
    if |s| >= width then s else seq(width - |s|, _ => fill) + s
  }

  /** Reading the fixed-width digits of `x` back gives `x`. */
  lemma {:induction false} DigitsValueOfDigits(x: nat, w: nat)
    requires x < Pow10(w)
    ensures DigitsValue(Digits(x, w)) == x
  {
    if w > 0 {
      var s := Digits(x, w);
      assert s[..|s| - 1] == Digits(x / 10, w - 1);
      DigitsValueOfDigits(x / 10, w - 1);
    }
  }

  /** `String(x)` of a number with exactly `w` digits is its `w`-digit rendering. */
  lemma {:induction false} DecimalIsDigits(x: nat, w: nat)
    requires w >= 1 && Pow10(w - 1) <= x < Pow10(w)
    ensures NatToDecimal(x) == Digits(x, w)
  {
    if w == 1 {
      assert Digits(x / 10, 0) == [];
    } else {
      DecimalIsDigits(x / 10, w - 1);
    }
  }

  /** `String(x).padStart(2, "0")` of a number below 100 is its two-digit rendering. */
  lemma PadStartTwoDigits(x: nat)
    requires x < 100
    ensures PadStart(NatToDecimal(x), 2, '0') == Digits(x, 2)
  {
    if x < 10 {
      assert Digits(x / 10, 1) == ['0'];
    } else {
      DecimalIsDigits(x, 2);
    }
  }

  /** The result of JavaScript's `Number(text)`: a finite number or NaN. */
  datatype JsNumber = Finite(value: int) | NaN

  /**
   * `Number(text)` for the texts this program meets: surrounding white space is
   * ignored, an empty or all-white text is 0, and an optional sign followed by
   * decimal digits is that integer. Every other text is NaN here.
   */
  function ToNumber(s: string): JsNumber {
    var t := Trim(s);
    if t == [] then Finite(0)
    else if t[0] == '-' && |t| > 1 then Negate(DecimalNumber(t[1..]))
    else if t[0] == '+' && |t| > 1 then DecimalNumber(t[1..])
    else DecimalNumber(t)
  }

  function Negate(n: JsNumber): JsNumber {
    if n.NaN? then NaN else Finite(-n.value)
  }

  /** A text of decimal digits read as the number it denotes; NaN once a character is not a digit. */
  function DecimalNumber(s: string): JsNumber {
    if s == [] then Finite(0)
    else
      var init := DecimalNumber(s[..|s| - 1]);
      if init.NaN? || !IsDigit(s[|s| - 1]) then NaN
      else Finite(10 * init.value + DigitValue(s[|s| - 1]))
  }

  /** `DecimalNumber` is `DigitsValue` on digit strings, and NaN on every other text. */
  lemma {:induction false} DecimalNumberOfDigits(s: string)
    ensures DecimalNumber(s).Finite? <==> AllDigits(s)
    ensures AllDigits(s) ==> DecimalNumber(s) == Finite(DigitsValue(s))
  {
    if s != [] {
      var init := s[..|s| - 1];
      DecimalNumberOfDigits(init);
      if AllDigits(s) {
        assert AllDigits(init) by {
          forall i | 0 <= i < |init|
            ensures IsDigit(init[i])
          {
            assert init[i] == s[i];
          }
        }
      } else if AllDigits(init) {
        assert !IsDigit(s[|s| - 1]);
      }
    }
  }

  /** `Number` reads a string of digits as the number it denotes. */
  lemma ToNumberOfDigitString(s: string)
    requires AllDigits(s)
    ensures ToNumber(s) == Finite(DigitsValue(s))
  {
    if s != [] {
      assert IsDigit(s[0]) && IsDigit(s[|s| - 1]);
      assert !IsWhitespace(s[0]) && !IsWhitespace(s[|s| - 1]);
    }
    TrimOfTrimmed(s);
    DecimalNumberOfDigits(s);
  }

  /** `Number` reads a fixed-width digit rendering back as the number it renders. */
  lemma ToNumberOfDigits(x: nat, w: nat)
    requires x < Pow10(w)
    ensures ToNumber(Digits(x, w)) == Finite(x)
  {
    ToNumberOfDigitString(Digits(x, w));
    DigitsValueOfDigits(x, w);
  }

  /** The trimmed texts the model's `Number` reads as a number: empty, or digits after an optional sign. */
  predicate IsNumeral(t: string) {
    || t == []
    || AllDigits(t)
    || (|t| > 1 && (t[0] == '-' || t[0] == '+') && AllDigits(t[1..]))
  }

  /** `Number(s)` is a number exactly when `s`, trimmed, is a numeral; otherwise NaN. */
  lemma ToNumberReadsNumerals(s: string)
    ensures ToNumber(s).Finite? <==> IsNumeral(Trim(s))
  {
    var t := Trim(s);
    if t != [] {
      if |t| > 1 && (t[0] == '-' || t[0] == '+') {
        DecimalNumberOfDigits(t[1..]);
        assert !IsDigit(t[0]);
      } else {
        DecimalNumberOfDigits(t);
      }
    }
  }

  /** JavaScript's `a <= b` on strings: lexicographic order of code units. */
  predicate LexLe(a: string, b: string)
    decreases |a|
  {
    if a == [] then true
    else if b == [] then false
    else if a[0] != b[0] then a[0] < b[0]
    else LexLe(a[1..], b[1..])
  }
}

=== FILE: time_parse.dfy ===
/**
 * `timeToMinutes`: reading an "HH:MM" wall-clock time as a minute of the day.
 * It splits the text at ':' and converts the first two fields with
 * `Number`; a time outside 00:00-23:59 or with a non-numeric field gives `null`.
 */
module TimeParse {
  import opened Wrappers
  import opened JsText

  const MINUTES_PER_HOUR := 60
  const HOURS_PER_DAY := 24
  const MINUTES_PER_DAY := MINUTES_PER_HOUR * HOURS_PER_DAY

  /** `s.split(":")[0]`: the text before the first ':' (all of `s` when it has none). */
  function BeforeColon(s: string): (r: string)
    ensures ':' !in r
    ensures |r| <= |s|
    ensures ':' !in s ==> r == s
  {
    if s == [] || s[0] == ':' then [] else [s[0]] + BeforeColon(s[1..])
  }

  /** The text after the first ':', or None when `s` has no ':'. */
  function AfterColon(s: string): (r: Option<string>)
    ensures r.None? <==> ':' !in s
    ensures r.Some? ==> s == BeforeColon(s) + [':'] + r.value
  {
    if s == [] then None
    else if s[0] == ':' then Some(s[1..])
    else
      var r := AfterColon(s[1..]);
      assert r.Some? ==> s == [s[0]] + s[1..];
      r
  }

  /** `s.split(":")[1]`: the second field, or None (`undefined`) when `s` has no ':'. */
  function SecondField(s: string): Option<string> {
    match AfterColon(s)
    case None => None
    case Some(rest) => Some(BeforeColon(rest))
  }

  /** What `timeToMinutes` can return as written: `null`, a number, or NaN. */
  datatype TimeValue = Null | Minutes(value: int) | NotANumber

  /**
   * The range check of `timeToMinutes` on two converted fields: null unless both
   * are numbers, the hours 0-23 and the minutes 0-59.
   */
  function FieldsToMinutes(hours: JsNumber, minutes: JsNumber): (r: Option<int>)
    ensures r.Some? ==> 0 <= r.value < MINUTES_PER_DAY
  {
    if hours.NaN? || minutes.NaN? then None
    else if hours.value < 0 || hours.value > 23 then None
    else if minutes.value < 0 || minutes.value > 59 then None
    else Some(hours.value * MINUTES_PER_HOUR + minutes.value)
  }

  /**
   * `timeToMinutes` exactly as written. `None` stands for a value that is not a
   * string. When the text has no ':' the minutes field is `undefined`:
   * `Number.isNaN(undefined)` is false and both range comparisons with it are
   * false, so the function falls through to `hours * 60 + undefined`, NaN.
   */
  function TimeToMinutesAsWritten(text: Option<string>): (r: TimeValue)
    ensures text.None? ==> r.Null?
    ensures r.Minutes? ==> 0 <= r.value < MINUTES_PER_DAY
    ensures r.NotANumber? ==> text.Some? && ':' !in text.value
  {
    match text
    case None => Null
    case Some(s) =>
      var hours := ToNumber(BeforeColon(s));
      match SecondField(s)
      case None =>
        if hours.NaN? || hours.value < 0 || hours.value > 23 then Null else NotANumber
      case Some(field) =>
        match FieldsToMinutes(hours, ToNumber(field))
        case None => Null
        case Some(m) => Minutes(m)
  }

  /**
   * `timeToMinutes` as its guard intends it: a text without a minutes field is
   * rejected like any other malformed time. The rest of the model uses this one.
   */
  function TimeToMinutes(text: Option<string>): (r: Option<int>)
    ensures r.Some? ==> 0 <= r.value < MINUTES_PER_DAY
  {
    match text
    case None => None
    case Some(s) =>
      match SecondField(s)
      case None => None
      case Some(field) => FieldsToMinutes(ToNumber(BeforeColon(s)), ToNumber(field))
  }

  /**
   * A time is read only when it has a minutes field and both fields, trimmed,
   * are numerals: empty or decimal digits after an optional sign. Any other
   * text gives `null`.
   */
  lemma TimeNeedsNumerals(s: string)
    ensures TimeToMinutes(Some(s)).Some? ==>
      && SecondField(s).Some?
      && IsNumeral(Trim(BeforeColon(s)))
      && IsNumeral(Trim(SecondField(s).value))
  {
    ToNumberReadsNumerals(BeforeColon(s));
    if SecondField(s).Some? {
      ToNumberReadsNumerals(SecondField(s).value);
    }
  }

  /** The "HH:MM" text an HTML time input produces for minute `m` of the day. */
  function FormatTime(m: nat): (r: string)
    requires m < MINUTES_PER_DAY
    ensures |r| == 5 && r[2] == ':'
  {
    Digits(m / MINUTES_PER_HOUR, 2) + ":" + Digits(m % MINUTES_PER_HOUR, 2)
  }

  lemma {:induction false} SplitAtFirstColon(a: string, b: string)
    requires ':' !in a
    ensures BeforeColon(a + [':'] + b) == a
    ensures AfterColon(a + [':'] + b) == Some(b)
  {
    if a != [] {
      assert (a + [':'] + b)[1..] == a[1..] + [':'] + b;
      SplitAtFirstColon(a[1..], b);
    }
  }

  lemma NoColonInDigits(s: string)
    requires AllDigits(s)
    ensures ':' !in s
  {
    forall i | 0 <= i < |s|
      ensures s[i] != ':'
    {
      assert IsDigit(s[i]);
    }
  }

  /**
   * On "hours:minutes" texts written in decimal digits (any number of them,
   * leading zeros allowed), `timeToMinutes` yields hours * 60 + minutes exactly
   * when the hours are 0-23 and the minutes 0-59, and null otherwise.
   */
  lemma DigitFields(h: nat, hw: nat, m: nat, mw: nat)
    requires h < Pow10(hw) && m < Pow10(mw)
    ensures TimeToMinutes(Some(Digits(h, hw) + ":" + Digits(m, mw))) ==
      if h <= 23 && m <= 59 then Some(h * MINUTES_PER_HOUR + m) else None
  {
    var hs, ms := Digits(h, hw), Digits(m, mw);
    var s := hs + ":" + ms;
    assert TimeToMinutes(Some(s)) == FieldsToMinutes(Finite(h), Finite(m)) by {
      NoColonInDigits(hs);
      NoColonInDigits(ms);
      SplitAtFirstColon(hs, ms);
      assert BeforeColon(s) == hs && SecondField(s) == Some(ms);
      ToNumberOfDigits(h, hw);
      ToNumberOfDigits(m, mw);
    }
    RangeCheck(s, h, m);
  }

  /** Every minute of the day survives the trip through its "HH:MM" text. */
  lemma TimeRoundTrip(m: nat)
    requires m < MINUTES_PER_DAY
    ensures TimeToMinutes(Some(FormatTime(m))) == Some(m)
  {
    var h, mm := m / MINUTES_PER_HOUR, m % MINUTES_PER_HOUR;
    assert h * MINUTES_PER_HOUR + mm == m && h <= 23;
    assert Pow10(2) == 100 by {
      assert Pow10(1) == 10;
    }
    var text := Digits(h, 2) + ":" + Digits(mm, 2);
    assert FormatTime(m) == text;
    DigitFields(h, 2, mm, 2);
  }

  lemma RangeCheck(s: string, h: nat, m: nat)
    requires TimeToMinutes(Some(s)) == FieldsToMinutes(Finite(h), Finite(m))
    ensures TimeToMinutes(Some(s)) ==
      if h <= 23 && m <= 59 then Some(h * MINUTES_PER_HOUR + m) else None
  {
  }

  /** A text without ':' is never a time of day. */
  lemma NoColonNoTime(s: string)
    requires ':' !in s
    ensures TimeToMinutes(Some(s)) == None
  {
  }

  /**
   * The corrected reading differs from the one as written only where the
   * written one yields NaN: both agree on every `null` and every number.
   */
  lemma CorrectionOnlyRemovesNaN(text: Option<string>)
    ensures TimeToMinutesAsWritten(text).Null? ==> TimeToMinutes(text).None?
    ensures forall m :: TimeToMinutesAsWritten(text) == Minutes(m) <==> TimeToMinutes(text) == Some(m)
    ensures TimeToMinutesAsWritten(text).NotANumber? ==> TimeToMinutes(text).None?
  {
  }

  /** As written, an hour with no minutes field ("9") reads as NaN rather than null. */
  lemma MissingMinutesReadAsNaN()
    ensures TimeToMinutesAsWritten(Some("9")) == NotANumber
    ensures TimeToMinutes(Some("9")) == None
  {
    assert AllDigits("9");
    ToNumberOfDigitString("9");
    assert DigitsValue("9") == 9 by {
      assert "9"[..0] == [];
    }
    assert BeforeColon("9") == "9";
    assert AfterColon("9") == None;
  }

  /**
   * As written, the empty text of a time input left blank reads as NaN rather
   * than null: `Number("")` is 0, an hour in range, and there is no minutes field.
   */
  lemma EmptyTimeReadsAsNaN()
    ensures TimeToMinutesAsWritten(Some("")) == NotANumber
    ensures TimeToMinutes(Some("")) == None
  {
    assert BeforeColon("") == "";
    assert AfterColon("") == None;
    assert ToNumber("") == Finite(0);
  }
}

=== FILE: wrappers.dfy ===
/** The optional value used where the JavaScript code returns `null` or `undefined`. */
module Wrappers {

  datatype Option<+T> = None | Some(value: T)
}
